=== FILE: README.md ===
# saas-builder core in Dafny

A model of the rules at the heart of saas-builder, a multi-tenant "SaaS
generator". A prompt such as "Iron Gym" becomes a tenant: an *organization*
with a slug and a *configuration*. The configuration lists the tenant's
resources, such as trainers and classes, and each resource's fields. A second
store keeps schema-less *records*, each tagged with an organization id and a
resource type. The tenant dashboard and the platform overview derive from
these: navigation links, active highlighting, breadcrumbs, themes and icons,
client search and card links. The generic record table does client-side
search, fixed pages of five rows and previous/next navigation.

| module | file | models |
|---|---|---|
| `Wrappers` | wrappers.dfy | `Option` and `Result` |
| `Text` | text.dfy | `toLowerCase` over ASCII, the `\s` character class, `String.prototype.includes`, decimal rendering |
| `Seqs` | seqs.dfy | `Array.prototype.filter` and order-preserving subsequences |
| `Schema` | schema.dfy | the Organization and GenericResource documents, the status enum, the error kinds |
| `Registry` | registry.dfy | the organization collection: create with validation, the unique slug index and timestamps; find by id; update; the newest-first list |
| `RecordStore` | record_store.dfy | the generic record collection: create with required fields; query by organization and resource type |
| `TenantGenerator` | tenant_generator.dfy | the generate route: keyword choice of the configuration, slug derivation, creation |
| `DataTable` | data_table.dfy | search, page count, page slice, previous/next, cell kind |
| `DashboardShell` | dashboard_shell.dfy | icon resolution, theme lookup, navigation links, active detection, breadcrumb |
| `AdminDashboard` | admin_dashboard.dfy | client filtering, first resource, resource count, manage and edit links, the card list |

The stores are immutable values. An organization or record store is a map from
ids to documents, plus the next free id and a clock that every write advances.
The clock stands in for `Date.now()`; the map stands in for the MongoDB
collection. Every operation that can fail returns a `Result`. Its error kinds
are the ones the source produces. A validation failure carries every failing
path with its reason: required, or outside the enum. The other kinds are a
duplicate slug and an unknown id.

The slug is derived at `app/api/saas/generate/route.ts:52`: each whitespace
run becomes one '-' and the result is lower-cased. Nothing is trimmed and no
punctuation is removed (`TenantGenerator.SlugKeepsPunctuation`,
`TenantGenerator.SlugKeepsOuterRuns`).

## Model

`Registry.FindById` and `Registry.Update` model the client route
`app/api/organizations/[id]/route.ts`: the lookup at lines 13-17, and the
`findByIdAndUpdate` with `$set` of name, slug and config at lines 33-47.
`Registry.FindById` returns the stored organization, or not-found exactly when
no organization has the id. The table cites the schema lines for
`Registry.Update`, whose unique index and timestamps the update keeps.

| member | source | states |
|---|---|---|
| Text.LowerChar | app/api/saas/generate/route.ts:6 | the result is never an upper-case letter; an upper-case ASCII letter maps to the letter 32 code points above, and every other character is kept; whitespace is preserved both ways |
| Text.UpperChar | components/DashboardShell.tsx:19 | the result is never a lower-case letter; a lower-case ASCII letter maps to its upper-case partner, and every other character is kept |
| Text.Lower | app/api/saas/generate/route.ts:6 | `toLowerCase` keeps the length and lower-cases character by character |
| Text.LowerAppend | app/api/saas/generate/route.ts:52 | lower-casing distributes over concatenation |
| Text.LowerIdempotent | components/DataTable.tsx:38-39 | a lower-cased string has no upper-case letter, and lower-casing it again changes nothing |
| Text.Decimal | app/saas-admin/dashboard/page.tsx:97 | an id renders as a non-empty string of digits, without a leading zero unless the id is 0, whose decimal reading is the id |
| Text.DecimalInjective | app/saas-admin/dashboard/page.tsx:97 | distinct ids render as distinct strings |
| Text.Includes | components/DataTable.tsx:39 | the substring search returns true exactly when the needle occurs at some position of the haystack |
| Text.ContainsEmpty | components/DataTable.tsx:39 | every string includes the empty string |
| Text.SuffixContained | components/DashboardShell.tsx:65 | a string includes each of its suffixes |
| Text.ContainsInRightPart | components/DashboardShell.tsx:65 | an occurrence in the right-hand part of a concatenation is an occurrence in the whole string |
| Seqs.Filter | components/DataTable.tsx:35 | the kept elements all pass the test and come from the input; every input element that passes is kept, as many times as it occurs; an element that fails is dropped entirely |
| Seqs.FilterIsSubsequence | components/DataTable.tsx:35-41 | filtering keeps the input order |
| Seqs.FilterAppendOne | app/saas-admin/dashboard/page.tsx:38-41 | filtering a sequence extended by one element extends the result by that element exactly when it passes |
| Seqs.FilterKeepsAll | app/saas-admin/dashboard/page.tsx:38-41 | when every element passes, the filter returns its input unchanged |
| Schema.StatusName | models/Organization.ts:12 | every status is written as one of "active", "suspended" or "archived" |
| Schema.ParseStatus | models/Organization.ts:10-14 | the enum accepts exactly the three names, and an accepted name is the name of the status it yields |
| Schema.StatusRoundTrip | models/Organization.ts:10-14 | reading back a status's name gives the same status |
| Schema.RequiredString | models/Organization.ts:4 | a required String path fails when absent and when empty, and passes for any non-empty text |
| Registry.EmptyValid | models/Organization.ts:5 | the empty collection meets the store invariant: unique slugs, ids matching their keys, timestamps in the past |
| Registry.InitialStatus | models/Organization.ts:13 | with no status supplied, an organization starts as active; a supplied status must parse |
| Registry.ValidationFailures | models/Organization.ts:4-14 | validation fails on `name` exactly when it is missing or empty, as required, and on `status` exactly when one is given outside the enum, naming the given value; no other path fails |
| Registry.Create | models/Organization.ts:4-26 | validation runs first and reports every failing path together; then a slug already stored is rejected; otherwise the document is stored under a fresh id with the given fields and createdAt == updatedAt == now; slugs stay unique |
| Registry.Update | models/Organization.ts:5-26 | not-found for an unknown id; a slug held by another organization is rejected; otherwise absent fields keep their value, present ones replace it, createdAt is kept, updatedAt strictly increases, and nothing else in the store changes |
| Registry.InsertNewestFirst | app/api/organizations/route.ts:8 | the insertion keeps the newest-first order, adds exactly the new entry to the multiset, and puts either it or the old head first |
| Registry.List | app/api/organizations/route.ts:8 | the list is newest first and holds every stored organization exactly once and nothing else, so its length is the number stored |
| Registry.NewestFirstAdjacent | app/api/organizations/route.ts:8 | in the list, no entry is older than the one after it |
| Registry.ListingPositions | app/api/organizations/route.ts:8 | in a list holding each stored organization once, every entry is stored, no id appears twice and every stored organization appears |
| RecordStore.EmptyValid | models/GenericResource.ts:28 | the empty record collection meets the store invariant |
| RecordStore.ValidationFailures | models/GenericResource.ts:11-26 | each of organizationId, resourceType and data fails as required exactly when it is missing, an empty resourceType counting as missing; no other path fails |
| RecordStore.Create | models/GenericResource.ts:11-28 | creation fails exactly when some required path is missing, reporting all of them; otherwise the payload is stored exactly as given under a fresh id; the organization id is not checked against any organization |
| RecordStore.Query | models/GenericResource.ts:11-21 | the query returns exactly the stored records tagged with both the organization id and the resource type, unchanged |
| RecordStore.CreatedRecordIsolated | models/GenericResource.ts:11-26 | a new record is found by a query for its own pair, with its payload intact, and by no query for another pair |
| RecordStore.CreateLeavesOtherQueries | models/GenericResource.ts:11-21 | creating a record leaves the result of every query for another pair unchanged |
| TenantGenerator.DeriveSlug | app/api/saas/generate/route.ts:52 | the slug has no whitespace and no upper-case letter, and is never longer than the prompt |
| TenantGenerator.CollapseWhitespace | app/api/saas/generate/route.ts:52 | the whitespace replacement never lengthens the text |
| TenantGenerator.CollapseShape | app/api/saas/generate/route.ts:52 | the whitespace replacement leaves no whitespace |
| TenantGenerator.CollapseNoWhitespace | app/api/saas/generate/route.ts:52 | text with no whitespace passes through the replacement unchanged |
| TenantGenerator.SlugIdempotent | app/api/saas/generate/route.ts:52 | deriving the slug of a slug returns the same slug |
| TenantGenerator.SlugOfSingleWord | app/api/saas/generate/route.ts:52 | for a prompt with no whitespace the slug is the lower-cased prompt |
| TenantGenerator.CollapseAppend | app/api/saas/generate/route.ts:52 | text that does not end in whitespace is replaced independently of what follows it |
| TenantGenerator.CollapseRun | app/api/saas/generate/route.ts:52 | a whole run of whitespace becomes exactly one '-' |
| TenantGenerator.SlugReplacesRun | app/api/saas/generate/route.ts:52 | for a maximal whitespace run w between a and b, the slug of a + w + b is slug(a) + "-" + slug(b), whatever the run's length or mix of whitespace characters |
| TenantGenerator.SlugOfTwoWords | app/api/saas/generate/route.ts:52 | two words separated by one space become the two lower-cased words joined by '-' |
| TenantGenerator.SlugKeepsPunctuation | app/api/saas/generate/route.ts:52 | "Joe's Gym!" becomes "joe's-gym!": punctuation is not stripped |
| TenantGenerator.SlugKeepsOuterRuns | app/api/saas/generate/route.ts:52 | whitespace at either end is not trimmed; it becomes a leading or trailing '-' |
| TenantGenerator.SelectConfig | app/api/saas/generate/route.ts:6-47 | "gym" anywhere in the lower-cased prompt gives the gym configuration; otherwise "mechanic" gives the mechanic configuration; otherwise the configuration is empty |
| TenantGenerator.SelectIgnoresCase | app/api/saas/generate/route.ts:6 | prompts equal up to case get the same configuration |
| TenantGenerator.GymWinsOverMechanic | app/api/saas/generate/route.ts:11-28 | a prompt with both keywords gets the emerald theme with resources trainers then classes |
| TenantGenerator.SelectedKeysWellFormed | app/api/saas/generate/route.ts:11-47 | in every configuration the rule can produce, resource keys are pairwise distinct, lower-case and free of whitespace |
| TenantGenerator.GymKeysWellFormed | app/api/saas/generate/route.ts:14-27 | the gym configuration's keys are distinct, lower-case and free of whitespace |
| TenantGenerator.MechanicKeysWellFormed | app/api/saas/generate/route.ts:32-45 | the mechanic configuration's keys are distinct, lower-case and free of whitespace |
| TenantGenerator.Generate | app/api/saas/generate/route.ts:50-54 | an empty prompt fails validation with `name` required; otherwise creation succeeds exactly when the derived slug is free; the new organization is named by the prompt verbatim, with the derived slug, the selected configuration and the active status |
| TenantGenerator.SameSlugCreatedOnce | app/api/saas/generate/route.ts:50-54 | of two prompts with the same slug, the second creation fails with a duplicate-slug error once the first has succeeded |
| DataTable.Search | components/DataTable.tsx:35-41 | a row is kept exactly when some declared column's text, with a falsy value read as "", contains the term ignoring case; a kept row appears as often as in the data, and kept rows keep their order |
| DataTable.EmptyTermKeepsAll | components/DataTable.tsx:35-41 | with at least one column, the empty term keeps every row |
| DataTable.NoColumnsKeepsNothing | components/DataTable.tsx:36 | with no columns, no row matches, not even for the empty term |
| DataTable.Truthy | components/DataTable.tsx:37 | a missing value and null are falsy; text is truthy exactly when non-empty, a number exactly when non-zero, a boolean exactly when true |
| DataTable.ToText | components/DataTable.tsx:37 | text is itself; a number is its decimal digits, never empty and without a leading zero except for 0 itself, with a leading '-' exactly when negative; booleans and null are their names |
| DataTable.CellText | components/DataTable.tsx:37 | a missing or falsy value searches as the empty string; any other value as its text |
| DataTable.TotalPages | components/DataTable.tsx:32-44 | the page count is the least number of five-row pages that holds the rows |
| DataTable.TotalPagesZero | components/DataTable.tsx:44 | there are no pages exactly when there are no rows |
| DataTable.SliceIndex | components/DataTable.tsx:45-48 | a bound within the sequence is used as given; a larger one is clamped to the length; a negative one counts back from the end, and clamps to 0 past the start |
| DataTable.Slice | components/DataTable.tsx:45-48 | the slice is the run of elements from the normalised start up to the normalised end, or empty when the end does not lie after the start |
| DataTable.Page | components/DataTable.tsx:45-48 | page p holds at most five rows; for p >= 1 it is exactly the rows with indices 5(p-1) to 5p-1 that exist, in order |
| DataTable.PageZeroEmpty | components/DataTable.tsx:45-48 | page 0 shows no rows, whatever the data |
| DataTable.PageIsBlock | components/DataTable.tsx:45-48 | page p is the block of rows from 5(p-1) up to 5p, cut off at the end of the rows |
| DataTable.PagesUpToPrefix | components/DataTable.tsx:44-48 | pages 1 to k together are the first 5k rows, or all rows |
| DataTable.PagesCoverRows | components/DataTable.tsx:44-48 | reading pages 1 to totalPages in order gives back exactly the filtered rows |
| DataTable.Previous | components/DataTable.tsx:178 | the previous page is p - 1, but never below 1 |
| DataTable.Next | components/DataTable.tsx:185 | the next page is p + 1, but never above the page count |
| DataTable.ClickPrevious | components/DataTable.tsx:178-179 | from page 2 or later previous goes back one page; from page 1 or below it lands on 1 |
| DataTable.ClickNext | components/DataTable.tsx:185-186 | below the page count next goes forward one page; on it next does nothing; above it next jumps back to the page count |
| DataTable.ClicksStayInRange | components/DataTable.tsx:177-186 | from any page between 1 and the page count, both buttons stay in that range |
| DataTable.NextWithNoMatchesHidesRows | components/DataTable.tsx:185-186 | with no matching rows the next button moves page 1 to page 0, and page 0 shows no rows |
| DataTable.ClickNextGuarded | components/DataTable.tsx:185-186 | with the button disabled from the last page on, next never leaves page 1 or later and moves forward only while pages remain |
| DataTable.NavigateStaysPositive | components/DataTable.tsx:177-186 | with the guarded next button, no sequence of clicks reaches a page below 1, whatever the page counts seen |
| DataTable.RenderCell | components/DataTable.tsx:51-75 | a placeholder exactly for a falsy value; otherwise a date for date or datetime columns; otherwise a badge for select columns or a column named status; otherwise text; each shown cell carries the row's value |
| DataTable.DateBeforeBadge | components/DataTable.tsx:56-64 | a date-typed column named status shows a date, not a badge |
| DataTable.Render | components/DataTable.tsx:35-48 | the found rows are exactly the matching rows of the data, each as often as in the data, in data order; the page count is the least number of five-row pages holding them; for a page p >= 1 the shown rows are exactly the found rows 5(p-1) to 5p-1 that exist |
| DashboardShell.IconKey | components/DashboardShell.tsx:19 | the icon key has the name's length, its first character upper-cased and every other character unchanged |
| DashboardShell.IconKeyIdempotent | components/DashboardShell.tsx:19 | capitalising a capitalised name changes nothing |
| DashboardShell.ResolveIcon | components/DashboardShell.tsx:20 | the capitalised name when the library exports it, otherwise Box |
| DashboardShell.UnknownIconFallsBack | components/DashboardShell.tsx:20 | a name whose capitalised form is not exported, including the empty name, resolves to Box |
| DashboardShell.ResolvedIconExported | components/DashboardShell.tsx:20 | when Box is exported, every name resolves to an exported icon |
| DashboardShell.ActiveTheme | components/DashboardShell.tsx:36-43 | the configured colour's entry when the map has one, otherwise blue; always one of the four entries |
| DashboardShell.ThemeRoundTrip | components/DashboardShell.tsx:36-43 | each theme is selected by its own name |
| DashboardShell.ThemeIsCaseSensitive | components/DashboardShell.tsx:43 | "Emerald" and a missing colour both fall back to blue |
| DashboardShell.DashboardHref | components/DashboardShell.tsx:64 | a resource's link is '/', then the slug, then "/dashboard/", then the key, and nothing else |
| DashboardShell.DesktopNav | components/DashboardShell.tsx:63-65 | one link per resource in configuration order, linking to the resource's dashboard page, active exactly when the path includes the key, with the resource's label and icon |
| DashboardShell.IsActive | components/DashboardShell.tsx:65 | an empty key is active everywhere; a key that ends the path is active; an active key is no longer than the path |
| DashboardShell.MobileNav | components/DashboardShell.tsx:179-183 | one drawer link per resource in configuration order, with the resource's label and icon |
| DashboardShell.DesktopMatchesMobile | components/DashboardShell.tsx:179-181 | the mobile drawer's links equal the sidebar's link for link |
| DashboardShell.OwnPageIsActive | components/DashboardShell.tsx:65 | on its own page a resource's link is active |
| DashboardShell.KeyInSlugAlwaysActive | components/DashboardShell.tsx:65 | a key that occurs in the tenant's slug is active on every page of that tenant |
| DashboardShell.SplitOn | components/DashboardShell.tsx:120 | splitting always yields at least one piece |
| DashboardShell.PiecesFreeOfSeparator | components/DashboardShell.tsx:120 | no piece of a split contains the separator |
| DashboardShell.SplitJoin | components/DashboardShell.tsx:120 | joining the pieces with the separator gives back the original string |
| DashboardShell.LastPieceIsSuffix | components/DashboardShell.tsx:120 | the last piece ends the string and is either the whole string or preceded by the separator |
| DashboardShell.Breadcrumb | components/DashboardShell.tsx:120 | the breadcrumb is the longest end of the path that contains no '/' |
| DashboardShell.TrailingSlashEmptyBreadcrumb | components/DashboardShell.tsx:120 | a path ending in '/' has an empty breadcrumb |
| DashboardShell.BreadcrumbOfResourcePage | components/DashboardShell.tsx:120 | on a resource's page whose key has no '/', the breadcrumb is the key |
| AdminDashboard.ClientOf | app/saas-admin/dashboard/page.tsx:24-27 | the client record of an organization has its id, name, slug and resource list |
| AdminDashboard.FilterClients | app/saas-admin/dashboard/page.tsx:38-41 | a client is kept exactly when its name or its slug contains the term, ignoring case; a kept client appears as often as in the input, and kept clients keep their order |
| AdminDashboard.EmptyTermKeepsAllClients | app/saas-admin/dashboard/page.tsx:38-41 | the empty term keeps every client |
| AdminDashboard.FirstResource | app/saas-admin/dashboard/page.tsx:81 | the first resource's key when it exists and is non-empty, otherwise "settings"; never empty |
| AdminDashboard.ResourceCount | app/saas-admin/dashboard/page.tsx:113 | the number of configured resources, or 0 when the configuration or its resource list is missing |
| AdminDashboard.CardOfStoredOrganization | app/saas-admin/dashboard/page.tsx:81 | for a stored organization, the card counts its resources, and links to "settings" when it has none |
| AdminDashboard.ManageLink | app/saas-admin/dashboard/page.tsx:82 | the manage link followed by any key is that key's page in the tenant's dashboard |
| AdminDashboard.ManagePageBreadcrumb | app/saas-admin/dashboard/page.tsx:82 | the breadcrumb computed from the manage link's own text, which ends in '/', is empty |
| AdminDashboard.EditLink | app/saas-admin/dashboard/page.tsx:97 | the edit link is "/saas-admin/clients/" followed by the client's id |
| AdminDashboard.EditLinkInjective | app/saas-admin/dashboard/page.tsx:97 | distinct clients get distinct edit links |
| AdminDashboard.FilterClientsStep | app/saas-admin/dashboard/page.tsx:38-41 | filtering one more listing entry appends its client exactly when it matches |
| AdminDashboard.PickMatchedStep | app/saas-admin/dashboard/page.tsx:38-41 | a matching entry is appended as a card and its position is recorded as picked |
| AdminDashboard.PickUnmatchedStep | app/saas-admin/dashboard/page.tsx:38-41 | an entry that does not match leaves the cards and the picked positions as they were |
| AdminDashboard.MatchingPrefixFilters | app/saas-admin/dashboard/page.tsx:38-41 | collecting the matching clients entry by entry gives the same list as filtering the listing's first n clients |
| AdminDashboard.MatchingPrefixStep | app/saas-admin/dashboard/page.tsx:38-41 | one entry further, the collected clients and the filtered prefix stay equal |
| AdminDashboard.MatchingPrefixIsFilter | app/saas-admin/dashboard/page.tsx:38-41 | over the whole listing, the collected clients are the filtered client list |
| AdminDashboard.PickMatching | app/saas-admin/dashboard/page.tsx:38-41 | the cards are exactly the listing's clients filtered by the term, in listing order; they sit at increasing positions of the listing, and every matching position is among them |
| AdminDashboard.PickedComplete | app/saas-admin/dashboard/page.tsx:38-41 | every card matches, every matching listing entry is picked and has its card, there are no more cards than entries, and the empty term gives one card per entry |
| AdminDashboard.PickedCards | app/saas-admin/dashboard/page.tsx:21-41 | clients picked in order from the registry listing are stored organizations, one per id, newest first |
| AdminDashboard.Cards | app/saas-admin/dashboard/page.tsx:21-41 | every card matches the term and is the client record of a stored organization; every matching stored organization has a card, and only one; cards are newest first; the empty term shows one card per stored organization |

## Left out

- Text.Lower: lower-cases ASCII letters only. JavaScript's full Unicode case mapping is not modelled.
- Text.UpperChar: upper-cases ASCII letters only. JavaScript's `toUpperCase` also maps other letters, and some to several characters ('ß' becomes "SS").
- DashboardShell.IconKey: capitalises an ASCII first letter only. For a name starting with a letter whose upper case is longer, such as 'ß', JavaScript's key would be longer than the name; the model keeps the length.
- DataTable.RenderCell: a date cell carries the raw value. Locale and time-zone formatting through `toLocaleDateString` is not modelled.
- DataTable.Search: the model's payload numbers are unbounded integers, rendered as decimal integer text. Floating-point values and nested objects in a payload are not modelled.
- DataTable.ToText: numbers of magnitude at least 2^53 (no longer exact as JavaScript numbers) or at least 1e21 (which `String` prints in exponent form, such as "1e+21") are not modelled. For them the model's decimal text differs from the source's.
- DataTable.CellText: a column named after an inherited Object property, such as "constructor" or "toString", is read as absent and searches as "". In JavaScript `row[col.name]` finds the inherited function, which is truthy, so the search runs over that function's source text.
- AdminDashboard.ManagePageBreadcrumb: states only what `Breadcrumb` gives for the link's own text. Next.js, without a `trailingSlash` setting, serves that page at the path without the final '/', where the breadcrumb would be "dashboard". The page is also rendered through app/[slug]/dashboard/layout.tsx, which draws its own sidebar and does not use DashboardShell, so no breadcrumb is shown there.
- DashboardShell.ActiveTheme: only the four own keys of the colour map are modelled. A colour such as "constructor" would, in JavaScript, hit an inherited property of the object.
- DashboardShell.ResolveIcon: the icon library is a set of export names. What the library exports is not part of this model.
- AdminDashboard.EditLink: ids are natural numbers written in decimal. MongoDB ObjectIds render as 24 hex digits; injectivity holds either way.
- TenantGenerator.Generate: the prompt is a string. A request without a prompt fails in the source with a runtime error before anything is stored; the model does not describe that error.
- DashboardShell.DesktopNav: a resource's key, label and icon, and a field's name, type and label, are always present strings in the model. The schema at models/Organization.ts:17-22 does not require them, so a configuration saved through the client edit route may omit them. In the source the link would then end in "undefined", `pathname.includes(undefined)` would search for the text "undefined", and the icon lookup at components/DashboardShell.tsx:19 would fail on the missing name. Configurations with missing paths are not modelled; the generated ones set every path.
- Schema.Field: the model takes each field as the record of name, type and label that the schema intends. In Mongoose, a `type` key inside a nested object declares that object's own type. Read that way, models/Organization.ts:22 declares `fields` as an array of strings, and a field record would then fail to cast, so both keyword configurations would be rejected on create. The model assumes the intended sub-document shape and does not model Mongoose's reading of schema declarations.
- Registry.List: the registry is passed by value, so listing cannot change it. That it does not modify the store holds by construction rather than by a stated contract.
- `firstResource` (app/saas-admin/dashboard/page.tsx:81) is computed but the manage link does not use it. `AdminDashboard.FirstResource` models the value on its own.
- Changing the search term does not reset the current page in the table. The model treats the page number as an input to `DataTable.Render` and does not track that state.
- The per-tenant record route (app/api/[slug]/[resource]/route.ts) is not part of this model. It does the record shaping and deletion, which are not among the modelled files.
- Database connection, HTTP and JSON handling, React state, animation and styling are left out. The stores are maps, and the clock is a counter that every write advances.
- Concurrent creation is left out: writes are atomic and sequential. The unique index on `slug` is the only guard the source relies on, and the model applies it on every create and update.
- The login page, the create wizard, layouts, the super-admin bar and the class-name helper are UI or I/O with no rule to state.

## Findings

| source | as written | input that shows it | evidently intended | confidence | as-written member | corrected member |
|---|---|---|---|---|---|---|
| components/DataTable.tsx:185-186 | next is disabled only when `currentPage === totalPages`, and moves to `Math.min(totalPages, p + 1)` | a search that matches no rows: totalPages is 0, page 1 is not 0 so next stays enabled, and clicking it moves to page 0; page 0 slices `(-5, 0)`, which is empty, so rows that match again later stay hidden | disable next from the last page on (`currentPage >= totalPages`), so the page never drops below 1 | not executed | DataTable.NextWithNoMatchesHidesRows | DataTable.ClickNextGuarded |

=== FILE: admin_dashboard.dfy ===
/**
 * The platform overview: the list of client organizations filtered by a
 * search term, and the links and counts shown on each client card.
 */
module AdminDashboard {
  import opened Wrappers
  import opened Text
  import opened Seqs
  import opened Schema
  import DashboardShell
  import Registry

  /** The configuration as the page reads it, where each level may be missing (`config?.resources?`). */
  datatype ClientConfig = ClientConfig(resources: Option<seq<ResourceDescriptor>>)

  /** A client card's input: one organization as the list endpoint returns it. */
  datatype Client = Client(id: Id, name: string, slug: string, config: Option<ClientConfig>)

  /** The client record the page receives for a stored organization. */
  function ClientOf(o: Organization): (c: Client)
    ensures c.id == o.id && c.name == o.name && c.slug == o.slug
    ensures c.config == Some(ClientConfig(Some(o.config.resources)))
  {
    Client(o.id, o.name, o.slug, Some(ClientConfig(Some(o.config.resources))))
  }

  /** The name or the slug contains the term, ignoring case. */
  predicate ClientMatches(c: Client, term: string) {
    Contains(Lower(c.name), Lower(term)) || Contains(Lower(c.slug), Lower(term))
  }

  /** `clients.filter(...)`: the matching clients in list order. */
  function FilterClients(clients: seq<Client>, term: string): (r: seq<Client>)
    ensures |r| <= |clients|
    ensures forall i :: 0 <= i < |r| ==> ClientMatches(r[i], term)
    ensures forall i :: 0 <= i < |clients| ==> (clients[i] in r <==> ClientMatches(clients[i], term))
    ensures forall c :: c in clients ==>
      multiset(r)[c] == (if ClientMatches(c, term) then multiset(clients)[c] else 0)
    ensures Subsequence(r, clients)
  {
    FilterIsSubsequence(clients, c => ClientMatches(c, term));
    Filter(clients, c => ClientMatches(c, term))
  }

  /** The empty term keeps every client. */
  lemma EmptyTermKeepsAllClients(clients: seq<Client>)
    ensures FilterClients(clients, "") == clients
  {
    forall i | 0 <= i < |clients|
      ensures ClientMatches(clients[i], "")
    {
      ContainsEmpty(Lower(clients[i].name));
    }
    FilterKeepsAll(clients, c => ClientMatches(c, ""));
  }

  /** The first resource exists and has a non-empty key. */
  predicate HasFirstKey(c: Client) {
    && c.config.Some? && c.config.value.resources.Some?
    && |c.config.value.resources.value| > 0
    && c.config.value.resources.value[0].key != ""
  }

  /** `client.config?.resources?.[0]?.key || 'settings'`. */
  function FirstResource(c: Client): (key: string)
    ensures key != ""
    ensures HasFirstKey(c) ==> key == c.config.value.resources.value[0].key
    ensures !HasFirstKey(c) ==> key == "settings"
  {
    if HasFirstKey(c) then c.config.value.resources.value[0].key else "settings"
  }

  /** `client.config?.resources?.length || 0`. */
  function ResourceCount(c: Client): (n: nat)
    ensures c.config.Some? && c.config.value.resources.Some? ==> n == |c.config.value.resources.value|
    ensures c.config.None? || c.config.value.resources.None? ==> n == 0
  {
    if c.config.Some? && c.config.value.resources.Some? then |c.config.value.resources.value| else 0
  }

  /** For a stored organization, the card counts its configured resources and links to the first. */
  lemma CardOfStoredOrganization(o: Organization)
    ensures ResourceCount(ClientOf(o)) == |o.config.resources|
    ensures |o.config.resources| == 0 ==> FirstResource(ClientOf(o)) == "settings"
    ensures |o.config.resources| > 0 && o.config.resources[0].key != "" ==>
      FirstResource(ClientOf(o)) == o.config.resources[0].key
  {
  }

  /** The "Manage" link: the tenant's dashboard home. */
  function ManageLink(slug: string): (link: string)
    ensures forall key :: link + key == DashboardShell.DashboardHref(slug, key)
  {
    "/" + slug + "/dashboard/"
  }

  /** The breadcrumb computed from the manage link's own text is empty, since that text ends in '/'. */
  lemma ManagePageBreadcrumb(slug: string)
    ensures DashboardShell.Breadcrumb(ManageLink(slug)) == ""
  {
    DashboardShell.TrailingSlashEmptyBreadcrumb(ManageLink(slug));
  }

  const EditPrefix: string := "/saas-admin/clients/"

  /** The settings link of a client card, naming the client by id. */
  function EditLink(id: Id): (link: string)
    ensures |link| > |EditPrefix| && link[..|EditPrefix|] == EditPrefix
    ensures link[|EditPrefix|..] == Decimal(id)
  {
    EditPrefix + Decimal(id)
  }

  /** Distinct clients get distinct settings links. */
  lemma EditLinkInjective(a: Id, b: Id)
    requires EditLink(a) == EditLink(b)
    ensures a == b
  {
    assert EditLink(a)[|EditPrefix|..] == EditLink(b)[|EditPrefix|..];
    DecimalInjective(a, b);
  }

  /** `cards` are the clients of the listing entries at the increasing positions `from`, all below `n`. */
  ghost predicate Picked(listed: seq<Organization>, cards: seq<Client>, from: seq<nat>, n: nat) {
    && |from| == |cards|
    && (forall k :: 0 <= k < |from| ==> from[k] < n && from[k] < |listed| && cards[k] == ClientOf(listed[from[k]]))
    && (forall k, l :: 0 <= k < l < |from| ==> from[k] < from[l])
  }

  /** Picking entry `n` next keeps the positions increasing. */
  lemma PickNext(listed: seq<Organization>, cards: seq<Client>, from: seq<nat>, n: nat)
    requires Picked(listed, cards, from, n) && n < |listed|
    ensures Picked(listed, cards + [ClientOf(listed[n])], from + [n], n + 1)
  {
  }

  /** Skipping entry `n` keeps what was picked. */
  lemma PickSkip(listed: seq<Organization>, cards: seq<Client>, from: seq<nat>, n: nat)
    requires Picked(listed, cards, from, n)
    ensures Picked(listed, cards, from, n + 1)
  {
  }

  /** Every listing entry below `n` whose client matches the term was picked. */
  ghost predicate AllMatchesPicked(listed: seq<Organization>, from: seq<nat>, n: nat, term: string) {
    forall j :: 0 <= j < n && j < |listed| && ClientMatches(ClientOf(listed[j]), term) ==> j in from
  }

  /** A step of the card loop on a matching entry `n`: its client is appended and `n` is picked. */
  lemma PickMatchedStep(listed: seq<Organization>, term: string, n: nat, cards: seq<Client>, from: seq<nat>)
    requires n < |listed| && ClientMatches(ClientOf(listed[n]), term)
    requires Picked(listed, cards, from, n) && AllMatchesPicked(listed, from, n, term)
    ensures Picked(listed, cards + [ClientOf(listed[n])], from + [n], n + 1)
    ensures AllMatchesPicked(listed, from + [n], n + 1, term)
  {
    PickNext(listed, cards, from, n);
  }

  /** A step of the card loop on an entry `n` that does not match: nothing changes. */
  lemma PickUnmatchedStep(listed: seq<Organization>, term: string, n: nat, cards: seq<Client>, from: seq<nat>)
    requires n < |listed| && !ClientMatches(ClientOf(listed[n]), term)
    requires Picked(listed, cards, from, n) && AllMatchesPicked(listed, from, n, term)
    ensures Picked(listed, cards, from, n + 1) && AllMatchesPicked(listed, from, n + 1, term)
  {
    PickSkip(listed, cards, from, n);
  }

  /** The matching clients among the first `n` listing entries, extended one entry at a time. */
  ghost function MatchingPrefix(listed: seq<Organization>, term: string, n: nat): seq<Client>
    requires n <= |listed|
  {
    if n == 0 then []
    else
      MatchingPrefix(listed, term, n - 1)
      + (if ClientMatches(ClientOf(listed[n - 1]), term) then [ClientOf(listed[n - 1])] else [])
  }

  /** Extending one entry at a time filters the same clients as `FilterClients` over the prefix. */
  lemma {:induction false} MatchingPrefixFilters(listed: seq<Organization>, term: string, n: nat)
    requires n <= |listed|
    ensures MatchingPrefix(listed, term, n) == FilterClients(Clients(listed)[..n], term)
  {
    if n == 0 {
      assert Clients(listed)[..0] == [];
    } else {
      MatchingPrefixFilters(listed, term, n - 1);
      MatchingPrefixStep(listed, term, n);
    }
  }

  /** Over the whole listing, the prefix is the filtered client list. */
  lemma MatchingPrefixIsFilter(listed: seq<Organization>, term: string)
    ensures MatchingPrefix(listed, term, |listed|) == FilterClients(Clients(listed), term)
  {
    MatchingPrefixFilters(listed, term, |listed|);
    assert Clients(listed)[..|listed|] == Clients(listed);
  }

  /** One entry further, the prefix and the filter stay equal. */
  lemma MatchingPrefixStep(listed: seq<Organization>, term: string, n: nat)
    requires 0 < n <= |listed|
    requires MatchingPrefix(listed, term, n - 1) == FilterClients(Clients(listed)[..n - 1], term)
    ensures MatchingPrefix(listed, term, n) == FilterClients(Clients(listed)[..n], term)
  {
    FilterClientsStep(listed, n - 1, term);
  }

  /**
   * Cards picked in order from a newest-first listing of stored organizations
   * with distinct ids are stored clients, with distinct ids, newest first.
   */
  lemma PickedCards(reg: Registry.Store, listed: seq<Organization>, cards: seq<Client>, from: seq<nat>)
    requires Registry.NewestFirst(listed)
    requires forall i :: 0 <= i < |listed| ==> Registry.Stored(reg, listed[i])
    requires forall i, j :: 0 <= i < j < |listed| ==> listed[i].id != listed[j].id
    requires Picked(listed, cards, from, |listed|)
    ensures forall i :: 0 <= i < |cards| ==> cards[i].id in reg.orgs && cards[i] == ClientOf(reg.orgs[cards[i].id])
    ensures forall i, j :: 0 <= i < j < |cards| ==> cards[i].id != cards[j].id
    ensures forall i, j :: 0 <= i < j < |cards| ==>
      reg.orgs[cards[i].id].createdAt >= reg.orgs[cards[j].id].createdAt
  {
    forall i | 0 <= i < |cards|
      ensures cards[i].id in reg.orgs && cards[i] == ClientOf(reg.orgs[cards[i].id])
    {
      assert Registry.Stored(reg, listed[from[i]]);
    }
    forall i, j | 0 <= i < j < |cards|
      ensures cards[i].id != cards[j].id
      ensures reg.orgs[cards[i].id].createdAt >= reg.orgs[cards[j].id].createdAt
    {
      assert from[i] < from[j];
      assert Registry.Stored(reg, listed[from[i]]) && Registry.Stored(reg, listed[from[j]]);
    }
  }

  /** The client records of a listing, position by position. */
  function Clients(listed: seq<Organization>): (clients: seq<Client>)
    ensures |clients| == |listed|
    ensures forall i :: 0 <= i < |listed| ==> clients[i] == ClientOf(listed[i])
  {
    seq(|listed|, i requires 0 <= i < |listed| => ClientOf(listed[i]))
  }

  /** Filtering the clients of one more listing entry. */
  lemma FilterClientsStep(listed: seq<Organization>, i: nat, term: string)
    requires i < |listed|
    ensures FilterClients(Clients(listed)[..i + 1], term)
         == FilterClients(Clients(listed)[..i], term)
            + (if ClientMatches(ClientOf(listed[i]), term) then [ClientOf(listed[i])] else [])
  {
    var clients := Clients(listed);
    assert clients[..i + 1] == clients[..i] + [ClientOf(listed[i])];
    FilterAppendOne(clients[..i], ClientOf(listed[i]), c => ClientMatches(c, term));
  }

  /** What the finished card loop has picked: every match, each as a card, and only matches. */
  lemma PickedComplete(listed: seq<Organization>, term: string, cards: seq<Client>, from: seq<nat>)
    requires cards == FilterClients(Clients(listed), term)
    requires Picked(listed, cards, from, |listed|) && AllMatchesPicked(listed, from, |listed|, term)
    ensures forall k :: 0 <= k < |cards| ==> ClientMatches(cards[k], term)
    ensures forall j :: 0 <= j < |listed| && ClientMatches(ClientOf(listed[j]), term) ==> j in from
    ensures forall j :: 0 <= j < |listed| && ClientMatches(ClientOf(listed[j]), term) ==> ClientOf(listed[j]) in cards
    ensures |cards| <= |listed|
    ensures term == "" ==> |cards| == |listed|
  {
    forall j | 0 <= j < |listed| && ClientMatches(ClientOf(listed[j]), term)
      ensures ClientOf(listed[j]) in cards
    {
      assert j in from;
      var k :| 0 <= k < |from| && from[k] == j;
    }
    if term == "" {
      EmptyTermKeepsAllClients(Clients(listed));
    }
  }

  /** The clients of the listing entries that match the term, in listing order: `clients.filter(...)` over the listing. */
  method PickMatching(listed: seq<Organization>, term: string) returns (cards: seq<Client>, ghost from: seq<nat>)
    ensures cards == FilterClients(Clients(listed), term)
    ensures Picked(listed, cards, from, |listed|)
    ensures AllMatchesPicked(listed, from, |listed|, term)
  {
    cards, from := [], [];
    for i := 0 to |listed|
      invariant cards == MatchingPrefix(listed, term, i)
      invariant Picked(listed, cards, from, i) && AllMatchesPicked(listed, from, i, term)
    {
      var c := ClientOf(listed[i]);
      if ClientMatches(c, term) {
        PickMatchedStep(listed, term, i, cards, from);
        cards, from := cards + [c], from + [i];
      } else {
        PickUnmatchedStep(listed, term, i, cards, from);
      }
    }
    MatchingPrefixIsFilter(listed, term);
  }

  /**
   * The card list as loaded: the registry's listing, newest first, projected
   * to client records and filtered by the term. Each matching stored
   * organization gets exactly one card, and the cards keep the listing's order.
   */
  method Cards(reg: Registry.Store, term: string) returns (cards: seq<Client>)
    requires Registry.Valid(reg)
    ensures forall i :: 0 <= i < |cards| ==> ClientMatches(cards[i], term)
    ensures forall i :: 0 <= i < |cards| ==> cards[i].id in reg.orgs && cards[i] == ClientOf(reg.orgs[cards[i].id])
    ensures forall id :: id in reg.orgs && ClientMatches(ClientOf(reg.orgs[id]), term) ==> ClientOf(reg.orgs[id]) in cards
    ensures forall i, j :: 0 <= i < j < |cards| ==> cards[i].id != cards[j].id
    ensures forall i, j :: 0 <= i < j < |cards| ==>
      reg.orgs[cards[i].id].createdAt >= reg.orgs[cards[j].id].createdAt
    ensures |cards| <= |reg.orgs|
    ensures term == "" ==> |cards| == |reg.orgs|
  {
    var listed := Registry.List(reg);
    Registry.ListingPositions(reg, listed);
    ghost var from;
    cards, from := PickMatching(listed, term);
    PickedComplete(listed, term, cards, from);
    PickedCards(reg, listed, cards, from);
    forall id | id in reg.orgs && ClientMatches(ClientOf(reg.orgs[id]), term)
      ensures ClientOf(reg.orgs[id]) in cards
    {
      var j :| 0 <= j < |listed| && listed[j] == reg.orgs[id];
    }
  }
}

=== FILE: dashboard_shell.dfy ===
/**
 * The tenant dashboard frame: icon names resolved against the icon library,
 * the theme chosen from the configured colour, one navigation link per
 * resource, and the breadcrumb taken from the current path.
 */
module DashboardShell {
  import opened Wrappers
  import opened Text
  import opened Schema

  /** `name.charAt(0).toUpperCase() + name.slice(1)`: the export name the icon is looked up by. */
  function IconKey(name: string): (k: string)
    ensures |k| == |name|
    ensures |name| > 0 ==> k[0] == UpperChar(name[0])
    ensures forall i :: 1 <= i < |name| ==> k[i] == name[i]
  {
    if name == [] then [] else [UpperChar(name[0])] + name[1..]
  }

  /** Capitalising an already capitalised name changes nothing. */
  lemma IconKeyIdempotent(name: string)
    ensures IconKey(IconKey(name)) == IconKey(name)
  {
  }

  const DefaultIcon: string := "Box"

  /**
   * `Icons[iconName] || Icons.Box`, the library's exports given as the set of
   * their names: the capitalised name when it is exported, else the default.
   */
  function ResolveIcon(exports: set<string>, name: string): (icon: string)
    ensures icon == IconKey(name) || icon == DefaultIcon
    ensures icon == IconKey(name) ==> icon in exports || icon == DefaultIcon
    ensures IconKey(name) in exports ==> icon == IconKey(name)
  {
    var key := IconKey(name);
    if key in exports then key else DefaultIcon
  }

  /** The empty name, and any name whose capitalised form is not exported, gets the default icon. */
  lemma UnknownIconFallsBack(exports: set<string>, name: string)
    requires IconKey(name) !in exports
    ensures ResolveIcon(exports, name) == DefaultIcon
    ensures "" !in exports ==> ResolveIcon(exports, "") == DefaultIcon
  {
  }

  /** When the library exports the default icon, every name resolves to an exported icon. */
  lemma ResolvedIconExported(exports: set<string>, name: string)
    requires DefaultIcon in exports
    ensures ResolveIcon(exports, name) in exports
  {
  }

  /** The four theme class sets, as opaque tokens. */
  datatype Theme = Emerald | Slate | Indigo | Blue

  const ColorMap: map<string, Theme> :=
    map["emerald" := Emerald, "slate" := Slate, "indigo" := Indigo, "blue" := Blue]

  function ThemeName(t: Theme): string {
    match t
    case Emerald => "emerald"
    case Slate => "slate"
    case Indigo => "indigo"
    case Blue => "blue"
  }

  /** `colorMap[config.themeColor] || colorMap['blue']`. */
  function ActiveTheme(themeColor: Option<string>): (t: Theme)
    ensures t in ColorMap.Values
    ensures themeColor.Some? && themeColor.value in ColorMap ==> t == ColorMap[themeColor.value]
    ensures themeColor.None? || themeColor.value !in ColorMap ==> t == Blue
  {
    if themeColor.Some? && themeColor.value in ColorMap then ColorMap[themeColor.value] else ColorMap["blue"]
  }

  /** Each theme is selected by its own name. */
  lemma ThemeRoundTrip(t: Theme)
    ensures ActiveTheme(Some(ThemeName(t))) == t
  {
  }

  /** A colour outside the map, such as the upper-case spelling of a known one, falls back to blue. */
  lemma ThemeIsCaseSensitive()
    ensures ActiveTheme(Some("Emerald")) == Blue
    ensures ActiveTheme(None) == Blue
  {
    assert "Emerald" !in ColorMap;
  }

  /** The page of one resource within a tenant's dashboard. */
  function DashboardHref(slug: string, key: string): (href: string)
    ensures |href| == |slug| + |key| + 12
    ensures href[..1] == "/" && href[|href| - |key|..] == key
    ensures href[1..|slug| + 1] == slug && href[|slug| + 1..|slug| + 12] == "/dashboard/"
  {
    "/" + slug + "/dashboard/" + key
  }

  /** `pathname.includes(res.key)`. */
  function IsActive(pathname: string, key: string): (active: bool)
    ensures key == "" ==> active
    ensures |key| <= |pathname| && pathname[|pathname| - |key|..] == key ==> active
    ensures active ==> |key| <= |pathname|
  {
    ContainsEmpty(pathname);
    SuffixContained(pathname, key);
    Contains(pathname, key)
  }

  datatype NavLink = NavLink(href: string, active: bool, caption: string, icon: string)

  /** The desktop sidebar: one link per resource, in configuration order. */
  function DesktopNav(slug: string, resources: seq<ResourceDescriptor>, pathname: string): (links: seq<NavLink>)
    ensures |links| == |resources|
    ensures forall i :: 0 <= i < |links| ==>
      && links[i].href == DashboardHref(slug, resources[i].key)
      && (links[i].active <==> IsActive(pathname, resources[i].key))
      && links[i].caption == resources[i].displayLabel
      && links[i].icon == resources[i].icon
  {
    seq(|resources|, i requires 0 <= i < |resources| =>
      var res := resources[i];
      NavLink(DashboardHref(slug, res.key), IsActive(pathname, res.key), res.displayLabel, res.icon))
  }

  /** The mobile drawer, which spells the same link out a second time. */
  function MobileNav(slug: string, resources: seq<ResourceDescriptor>, pathname: string): (links: seq<NavLink>)
    ensures |links| == |resources|
    ensures forall i :: 0 <= i < |links| ==>
      links[i].caption == resources[i].displayLabel && links[i].icon == resources[i].icon
  {
    if resources == [] then []
    else
      var res := resources[0];
      [NavLink("/" + slug + "/dashboard/" + res.key, Contains(pathname, res.key), res.displayLabel, res.icon)]
        + MobileNav(slug, resources[1..], pathname)
  }

  /** The two navigation lists agree link for link. */
  lemma {:induction false} DesktopMatchesMobile(slug: string, resources: seq<ResourceDescriptor>, pathname: string)
    ensures MobileNav(slug, resources, pathname) == DesktopNav(slug, resources, pathname)
  {
    if resources != [] {
      DesktopMatchesMobile(slug, resources[1..], pathname);
      var d := DesktopNav(slug, resources, pathname);
      assert d == [d[0]] + DesktopNav(slug, resources[1..], pathname);
    }
  }

  /** On a resource's own page, its link is highlighted. */
  lemma OwnPageIsActive(slug: string, key: string)
    ensures IsActive(DashboardHref(slug, key), key)
  {
    SuffixContained(DashboardHref(slug, key), key);
  }

  /**
   * Highlighting is by substring, not by path segment: a key that occurs in
   * the tenant's slug is highlighted on every page of the tenant.
   */
  lemma KeyInSlugAlwaysActive(slug: string, key: string, other: string)
    requires Contains(slug, key)
    ensures IsActive(DashboardHref(slug, other), key)
  {
    ContainsInRightPart("/", slug, key);
    var i :| 0 <= i <= |"/" + slug| && OccursAt("/" + slug, key, i);
    var href := DashboardHref(slug, other);
    assert href == ("/" + slug) + ("/dashboard/" + other);
    assert href[i..i + |key|] == ("/" + slug)[i..i + |key|];
    assert OccursAt(href, key, i);
  }

  /** `s.split(sep)`: the pieces between separators; the empty string splits into one empty piece. */
  function SplitOn(s: string, sep: char): (parts: seq<string>)
    ensures |parts| >= 1
    decreases |s|
  {
    if s == [] then [[]]
    else
      var rest := SplitOn(s[1..], sep);
      if s[0] == sep then [[]] + rest
      else [[s[0]] + rest[0]] + rest[1..]
  }

  /** No piece of `parts` contains `sep`. */
  predicate FreeOf(parts: seq<string>, sep: char)
  {
    forall i, k :: 0 <= i < |parts| && 0 <= k < |parts[i]| ==> parts[i][k] != sep
  }

  /** The separator never ends up inside a piece. */
  lemma {:induction false} PiecesFreeOfSeparator(s: string, sep: char)
    ensures FreeOf(SplitOn(s, sep), sep)
    decreases |s|
  {
    if s != [] {
      PiecesFreeOfSeparator(s[1..], sep);
      var rest := SplitOn(s[1..], sep);
      var parts := SplitOn(s, sep);
      forall i, k | 0 <= i < |parts| && 0 <= k < |parts[i]|
        ensures parts[i][k] != sep
      {
        if s[0] == sep {
          assert parts == [[]] + rest;
          if i > 0 {
            assert parts[i][k] == rest[i - 1][k];
          }
        } else {
          assert parts == [[s[0]] + rest[0]] + rest[1..];
          if i > 0 {
            assert parts[i][k] == rest[i][k];
          } else if k > 0 {
            assert parts[0][k] == rest[0][k - 1];
          } else {
            assert parts[0][0] == s[0];
          }
        }
      }
    }
  }

  /** `last` ends `s` and is either all of `s` or preceded by `sep`. */
  predicate EndsWithPiece(s: string, last: string, sep: char)
  {
    && |last| <= |s| && s[|s| - |last|..] == last
    && (|last| == |s| || s[|s| - |last| - 1] == sep)
  }

  /** The last piece is the end of the string, preceded by a separator unless it is the whole string. */
  lemma {:induction false} LastPieceIsSuffix(s: string, sep: char)
    ensures var parts := SplitOn(s, sep); EndsWithPiece(s, parts[|parts| - 1], sep)
    decreases |s|
  {
    if s != [] {
      LastPieceIsSuffix(s[1..], sep);
      SplitJoin(s[1..], sep);
      if s[0] != sep && |SplitOn(s[1..], sep)| == 1 {
        LastPieceOfOnePiece(s, sep);
      } else {
        LastPieceOfMany(s, sep);
      }
    }
  }

  /** Without a separator the single piece is the whole string. */
  lemma LastPieceOfOnePiece(s: string, sep: char)
    requires s != [] && s[0] != sep
    requires |SplitOn(s[1..], sep)| == 1
    requires Join(SplitOn(s[1..], sep), sep) == s[1..]
    ensures var parts := SplitOn(s, sep); EndsWithPiece(s, parts[|parts| - 1], sep)
  {
    var rest := SplitOn(s[1..], sep);
    assert rest[0] == s[1..];
    assert SplitOn(s, sep) == [[s[0]] + rest[0]];
    assert s == [s[0]] + s[1..];
    assert s[|s| - |s|..] == s;
  }

  /** With two pieces or more, the last piece is the last piece of the tail, and it ends the string too. */
  lemma LastPieceOfMany(s: string, sep: char)
    requires s != []
    requires s[0] == sep || |SplitOn(s[1..], sep)| > 1
    requires var rest := SplitOn(s[1..], sep); EndsWithPiece(s[1..], rest[|rest| - 1], sep)
    requires Join(SplitOn(s[1..], sep), sep) == s[1..]
    ensures var parts := SplitOn(s, sep); EndsWithPiece(s, parts[|parts| - 1], sep)
  {
    var rest := SplitOn(s[1..], sep);
    var last := rest[|rest| - 1];
    var parts := SplitOn(s, sep);
    assert parts[|parts| - 1] == last;
    if s[0] != sep {
      JoinLength(rest, sep);
    }
    TailSuffix(s, last, sep);
  }

  /** A suffix of the tail, preceded by a separator there or in front, is such a suffix of the string. */
  lemma TailSuffix(s: string, last: string, sep: char)
    requires s != [] && EndsWithPiece(s[1..], last, sep)
    requires |last| == |s| - 1 ==> s[0] == sep
    ensures EndsWithPiece(s, last, sep)
  {
    assert s[|s| - |last|..] == s[1..][|s| - 1 - |last|..];
  }

  /** Joining the pieces with the separator. */
  function Join(parts: seq<string>, sep: char): string
    requires |parts| >= 1
    decreases |parts|
  {
    if |parts| == 1 then parts[0] else parts[0] + [sep] + Join(parts[1..], sep)
  }

  /** The joined string is at least as long as its last piece plus one separator per earlier piece. */
  lemma {:induction false} JoinLength(parts: seq<string>, sep: char)
    requires |parts| >= 1
    ensures |Join(parts, sep)| >= |parts[|parts| - 1]| + |parts| - 1
    decreases |parts|
  {
    if |parts| > 1 {
      JoinLength(parts[1..], sep);
    }
  }

  /** Splitting loses nothing: joining the pieces back gives the original string. */
  lemma {:induction false} SplitJoin(s: string, sep: char)
    ensures Join(SplitOn(s, sep), sep) == s
    decreases |s|
  {
    if s != [] {
      SplitJoin(s[1..], sep);
      if s[0] == sep {
        SplitJoinAtSeparator(s, sep);
      } else {
        SplitJoinInsidePiece(s, sep);
      }
    }
  }

  /** A leading separator opens an empty first piece. */
  lemma SplitJoinAtSeparator(s: string, sep: char)
    requires s != [] && s[0] == sep
    requires Join(SplitOn(s[1..], sep), sep) == s[1..]
    ensures Join(SplitOn(s, sep), sep) == s
  {
    var rest := SplitOn(s[1..], sep);
    assert SplitOn(s, sep) == [[]] + rest;
    JoinCons([], rest, sep);
    assert s == [] + [sep] + s[1..];
  }

  /** Any other leading character extends the first piece. */
  lemma SplitJoinInsidePiece(s: string, sep: char)
    requires s != [] && s[0] != sep
    requires Join(SplitOn(s[1..], sep), sep) == s[1..]
    ensures Join(SplitOn(s, sep), sep) == s
  {
    var rest := SplitOn(s[1..], sep);
    assert SplitOn(s, sep) == [[s[0]] + rest[0]] + rest[1..];
    JoinHead([s[0]], rest, sep);
    assert s == [s[0]] + s[1..];
  }

  /** Joining a list with a new first piece puts that piece and a separator in front. */
  lemma JoinCons(p: string, rest: seq<string>, sep: char)
    requires |rest| >= 1
    ensures Join([p] + rest, sep) == p + [sep] + Join(rest, sep)
  {
    assert ([p] + rest)[1..] == rest;
  }

  /** Prefixing the first piece prefixes the joined string. */
  lemma JoinHead(p: string, rest: seq<string>, sep: char)
    requires |rest| >= 1
    ensures Join([p + rest[0]] + rest[1..], sep) == p + Join(rest, sep)
  {
    var parts := [p + rest[0]] + rest[1..];
    if |rest| > 1 {
      assert parts[1..] == rest[1..];
      assert Join(parts, sep) == (p + rest[0]) + [sep] + Join(rest[1..], sep);
      assert (p + rest[0]) + [sep] + Join(rest[1..], sep) == p + (rest[0] + [sep] + Join(rest[1..], sep));
    }
  }

  /**
   * `pathname.split('/').pop()`: the text after the last '/', which is the
   * whole path when it has no '/'.
   */
  function Breadcrumb(pathname: string): (segment: string)
    ensures forall k :: 0 <= k < |segment| ==> segment[k] != '/'
    ensures |segment| <= |pathname| && pathname[|pathname| - |segment|..] == segment
    ensures |segment| == |pathname| || pathname[|pathname| - |segment| - 1] == '/'
  {
    LastPieceIsSuffix(pathname, '/');
    PiecesFreeOfSeparator(pathname, '/');
    var parts := SplitOn(pathname, '/');
    parts[|parts| - 1]
  }

  /** A path ending in '/' has an empty breadcrumb. */
  lemma TrailingSlashEmptyBreadcrumb(pathname: string)
    requires |pathname| > 0 && pathname[|pathname| - 1] == '/'
    ensures Breadcrumb(pathname) == ""
  {
  }

  /** On a resource page the breadcrumb is the resource key, when the key has no '/'. */
  lemma BreadcrumbOfResourcePage(slug: string, key: string)
    requires forall k :: 0 <= k < |key| ==> key[k] != '/'
    ensures Breadcrumb(DashboardHref(slug, key)) == key
  {
    var href := DashboardHref(slug, key);
    var seg := Breadcrumb(href);
    assert href[|href| - |key| - 1] == '/';
  }
}

=== FILE: data_table.dfy ===
/**
 * The generic record table: case-insensitive search over the declared
 * columns, fixed-size pages, previous/next navigation, and the choice of
 * how each cell is shown.
 */
module DataTable {
  import opened Wrappers
  import opened Text
  import opened Seqs
  import opened Schema

  /** A row as the table receives it: field name to value. */
  type Row = map<string, Value>

  const ItemsPerPage: nat := 5

  /** `row[name]`: absent keys read as `undefined`. */
  function Lookup(row: Row, name: string): Option<Value> {
    if name in row then Some(row[name]) else None
  }

  /** JavaScript truthiness of a looked-up value. */
  function Truthy(v: Option<Value>): (t: bool)
    ensures v.None? || v == Some(VNull) ==> !t
    ensures v.Some? && v.value.VString? ==> (t <==> |v.value.s| > 0)
    ensures v.Some? && v.value.VNumber? ==> (t <==> v.value.n != 0)
    ensures v.Some? && v.value.VBool? ==> (t <==> v.value.b)
  {
    match v
    case None => false
    case Some(VString(s)) => s != ""
    case Some(VNumber(n)) => n != 0
    case Some(VBool(b)) => b
    case Some(VNull) => false
  }

  /** `String(v)` for the payload values (numbers are integers here). */
  function ToText(v: Value): (t: string)
    ensures v.VString? ==> t == v.s
    ensures v.VNumber? && v.n >= 0 ==>
      1 <= |t| && (v.n > 0 ==> t[0] != '0')
      && AllDigits(t) && DigitsValue(t) == v.n
    ensures v.VNumber? && v.n < 0 ==>
      |t| >= 2 && t[0] == '-' && t[1] != '0'
      && AllDigits(t[1..]) && DigitsValue(t[1..]) == -v.n
    ensures v.VBool? ==> (t == "true" <==> v.b) && (t == "false" <==> !v.b)
    ensures v.VNull? ==> t == "null"
  {
    match v
    case VString(s) => s
    case VNumber(n) =>
      if n < 0 then
        var t := "-" + Decimal(-n);
        assert t[1..] == Decimal(-n);
        t
      else Decimal(n)
    case VBool(b) => if b then "true" else "false"
    case VNull => "null"
  }

  /** `String(row[col.name] || '')`: a falsy value searches as the empty string. */
  function CellText(row: Row, col: Field): (text: string)
    ensures col.name !in row ==> text == ""
    ensures col.name in row && !Truthy(Some(row[col.name])) ==> text == ""
    ensures col.name in row && Truthy(Some(row[col.name])) ==> text == ToText(row[col.name])
  {
    var v := Lookup(row, col.name);
    if Truthy(v) then ToText(v.value) else ""
  }

  predicate ColumnMatches(row: Row, col: Field, term: string) {
    Contains(Lower(CellText(row, col)), Lower(term))
  }

  /** `columns.some(...)`: some declared column's text contains the term, ignoring case. */
  predicate RowMatches(row: Row, columns: seq<Field>, term: string) {
    exists i :: 0 <= i < |columns| && ColumnMatches(row, columns[i], term)
  }

  /** `data.filter(...)`: the rows that match, in their original order. */
  function Search(data: seq<Row>, columns: seq<Field>, term: string): (r: seq<Row>)
    ensures |r| <= |data|
    ensures forall i :: 0 <= i < |r| ==> RowMatches(r[i], columns, term)
    ensures forall i :: 0 <= i < |data| ==> (data[i] in r <==> RowMatches(data[i], columns, term))
    ensures forall row :: row in data ==>
      multiset(r)[row] == (if RowMatches(row, columns, term) then multiset(data)[row] else 0)
    ensures Subsequence(r, data)
  {
    FilterIsSubsequence(data, row => RowMatches(row, columns, term));
    Filter(data, row => RowMatches(row, columns, term))
  }

  /** With at least one column, the empty term keeps every row. */
  lemma EmptyTermKeepsAll(data: seq<Row>, columns: seq<Field>)
    requires |columns| > 0
    ensures Search(data, columns, "") == data
  {
    forall i | 0 <= i < |data|
      ensures RowMatches(data[i], columns, "")
    {
      ContainsEmpty(Lower(CellText(data[i], columns[0])));
      assert ColumnMatches(data[i], columns[0], "");
    }
    FilterKeepsAll(data, row => RowMatches(row, columns, ""));
  }

  /** With no columns nothing can match, not even the empty term. */
  lemma NoColumnsKeepsNothing(data: seq<Row>, term: string)
    ensures Search(data, [], term) == []
  {
  }

  /** `Math.ceil(n / itemsPerPage)`: the least page count whose pages hold `n` rows. */
  function TotalPages(n: nat): (t: nat)
    ensures ItemsPerPage * t - ItemsPerPage < n <= ItemsPerPage * t
  {
    (n + ItemsPerPage - 1) / ItemsPerPage
  }

  /** No matches, no pages; otherwise at least one. */
  lemma TotalPagesZero(n: nat)
    ensures TotalPages(n) == 0 <==> n == 0
  {
  }

  /** Index normalisation of `Array.prototype.slice`: negative counts from the end, then clamp to `[0, len]`. */
  function SliceIndex(i: int, len: nat): (k: nat)
    ensures k <= len
    ensures 0 <= i <= len ==> k == i
    ensures i > len ==> k == len
    ensures i < 0 && 0 <= len + i ==> k == len + i
    ensures len + i < 0 ==> k == 0
  {
    if i < 0 then (if len + i < 0 then 0 else len + i)
    else if i > len then len
    else i
  }

  /** `s.slice(start, end)`. */
  function Slice<T>(s: seq<T>, start: int, end: int): (r: seq<T>)
    ensures |r| <= |s|
    ensures start >= 0 && end >= start ==> |r| <= end - start
    ensures |r| == if SliceIndex(start, |s|) < SliceIndex(end, |s|)
                   then SliceIndex(end, |s|) - SliceIndex(start, |s|) else 0
    ensures forall j :: 0 <= j < |r| ==> r[j] == s[SliceIndex(start, |s|) + j]
  {
    var a, b := SliceIndex(start, |s|), SliceIndex(end, |s|);
    if a < b then s[a..b] else []
  }

  /** The rows shown on page `p` (pages count from 1). */
  function Page<T>(rows: seq<T>, p: int): (r: seq<T>)
    ensures |r| <= ItemsPerPage
    ensures |r| <= |rows|
    ensures p >= 1 ==> forall k :: 0 <= k < |r| ==>
      (p - 1) * ItemsPerPage + k < |rows| && r[k] == rows[(p - 1) * ItemsPerPage + k]
    ensures p >= 1 ==> forall i :: (p - 1) * ItemsPerPage <= i < p * ItemsPerPage && i < |rows| ==>
      i - (p - 1) * ItemsPerPage < |r| && r[i - (p - 1) * ItemsPerPage] == rows[i]
  {
    Slice(rows, (p - 1) * ItemsPerPage, p * ItemsPerPage)
  }

  /** Page 0 shows nothing, whatever the rows. */
  lemma PageZeroEmpty<T>(rows: seq<T>)
    ensures Page(rows, 0) == []
  {
  }

  function Min(a: int, b: int): int {
    if a < b then a else b
  }

  /** Page `p` is the block of rows from index `5(p-1)` up to `5p`, cut off at the end of the rows. */
  lemma PageIsBlock<T>(rows: seq<T>, p: int)
    requires p >= 1
    ensures Page(rows, p) == rows[Min(ItemsPerPage * (p - 1), |rows|)..Min(ItemsPerPage * p, |rows|)]
  {
  }

  /** Pages 1 through `k`, one after another. */
  function PagesUpTo<T>(rows: seq<T>, k: nat): seq<T> {
    if k == 0 then [] else PagesUpTo(rows, k - 1) + Page(rows, k)
  }

  /** The first `k` pages are the first `5k` rows (or all of them). */
  lemma {:induction false} PagesUpToPrefix<T>(rows: seq<T>, k: nat)
    ensures PagesUpTo(rows, k) == rows[..Min(ItemsPerPage * k, |rows|)]
  {
    if k > 0 {
      PagesUpToPrefix(rows, k - 1);
      var lo, hi := Min(ItemsPerPage * (k - 1), |rows|), Min(ItemsPerPage * k, |rows|);
      PageIsBlock(rows, k);
      PrefixThenBlock(rows, lo, hi);
    }
  }

  lemma PrefixThenBlock<T>(rows: seq<T>, lo: nat, hi: nat)
    requires lo <= hi <= |rows|
    ensures rows[..lo] + rows[lo..hi] == rows[..hi]
  {
  }

  /** Reading every page in order gives back exactly the searched rows. */
  lemma PagesCoverRows<T>(rows: seq<T>)
    ensures PagesUpTo(rows, TotalPages(|rows|)) == rows
  {
    PagesUpToPrefix(rows, TotalPages(|rows|));
  }

  /** `Math.max(1, p - 1)`. */
  function Previous(p: int): (q: int)
    ensures q >= 1
    ensures p >= 2 ==> q == p - 1
    ensures p <= 2 ==> q == 1
  {
    if 1 > p - 1 then 1 else p - 1
  }

  /** `Math.min(totalPages, p + 1)`. */
  function Next(p: int, totalPages: nat): (q: int)
    ensures q <= totalPages
    ensures p < totalPages ==> q == p + 1
    ensures p >= totalPages ==> q == totalPages
  {
    if totalPages < p + 1 then totalPages else p + 1
  }

  /** The previous button, disabled on page 1. */
  function ClickPrevious(p: int): (q: int)
    ensures p <= 1 ==> q == 1
    ensures p >= 2 ==> q == p - 1
  {
    if p == 1 then p else Previous(p)
  }

  /** The next button as written: disabled only when the page equals the page count. */
  function ClickNext(p: int, totalPages: nat): (q: int)
    ensures p < totalPages ==> q == p + 1
    ensures p == totalPages ==> q == p
    ensures p > totalPages ==> q == totalPages
  {
    if p == totalPages then p else Next(p, totalPages)
  }

  /** While there is at least one page, both buttons keep the page between 1 and the page count. */
  lemma ClicksStayInRange(p: int, totalPages: nat)
    requires 1 <= p <= totalPages
    ensures 1 <= ClickPrevious(p) <= totalPages
    ensures 1 <= ClickNext(p, totalPages) <= totalPages
  {
  }

  /**
   * When nothing matches the next button is still enabled on page 1, and
   * pressing it moves to page 0; page 0 shows no row even once the search
   * matches rows again.
   */
  lemma NextWithNoMatchesHidesRows<T>(data: seq<T>)
    ensures ClickNext(1, TotalPages(0)) == 0
    ensures Page(data, 0) == []
  {
  }

  /** The next button disabled from the last page on (`currentPage >= totalPages`). */
  function ClickNextGuarded(p: int, totalPages: nat): (q: int)
    ensures p >= 1 ==> q >= 1
    ensures p < totalPages ==> q == p + 1
    ensures p >= totalPages ==> q == p
  {
    if p >= totalPages then p else Next(p, totalPages)
  }

  datatype Click = PreviousClick | NextClick

  /** The page reached from `p` by a series of clicks, each seeing the page count of its moment. */
  function Navigate(p: int, clicks: seq<(Click, nat)>): int
    decreases |clicks|
  {
    if clicks == [] then p
    else
      var (c, total) := clicks[0];
      var q := if c == PreviousClick then ClickPrevious(p) else ClickNextGuarded(p, total);
      Navigate(q, clicks[1..])
  }

  /** With the guarded next button, no series of clicks leaves page 1 or later, whatever the page counts. */
  lemma {:induction false} NavigateStaysPositive(p: int, clicks: seq<(Click, nat)>)
    requires p >= 1
    ensures Navigate(p, clicks) >= 1
    decreases |clicks|
  {
    if clicks != [] {
      var (c, total) := clicks[0];
      var q := if c == PreviousClick then ClickPrevious(p) else ClickNextGuarded(p, total);
      NavigateStaysPositive(q, clicks[1..]);
    }
  }

  /** How a cell is shown. */
  datatype Cell = Placeholder | DateCell(value: Value) | Badge(value: Value) | TextCell(value: Value)

  predicate IsDateType(fieldType: string) {
    fieldType == "date" || fieldType == "datetime"
  }

  /**
   * `renderCell`: a falsy value shows the placeholder; otherwise a date or
   * datetime column shows a date; otherwise a select column or a column named
   * "status" shows a badge; anything else is plain text.
   */
  function RenderCell(row: Row, col: Field): (c: Cell)
    ensures c.Placeholder? <==> !Truthy(Lookup(row, col.name))
    ensures c.DateCell? <==> Truthy(Lookup(row, col.name)) && IsDateType(col.fieldType)
    ensures c.Badge? <==> Truthy(Lookup(row, col.name)) && !IsDateType(col.fieldType)
                          && (col.fieldType == "select" || col.name == "status")
    ensures !c.Placeholder? ==> col.name in row && c.value == row[col.name]
  {
    var v := Lookup(row, col.name);
    if !Truthy(v) then Placeholder
    else if IsDateType(col.fieldType) then DateCell(v.value)
    else if col.fieldType == "select" || col.name == "status" then Badge(v.value)
    else TextCell(v.value)
  }

  /** The date check comes first: a "status" column typed as a date shows a date, not a badge. */
  lemma DateBeforeBadge(row: Row, fieldType: string, caption: string)
    requires Truthy(Lookup(row, "status")) && IsDateType(fieldType)
    ensures RenderCell(row, Field("status", fieldType, caption)).DateCell?
  {
  }

  /** What the table shows: the searched rows, how many pages they fill, and the current page. */
  datatype View = View(filtered: seq<Row>, totalPages: nat, pageRows: seq<Row>)

  function Render(data: seq<Row>, columns: seq<Field>, term: string, currentPage: int): (v: View)
    ensures |v.pageRows| <= |v.filtered| <= |data|
    ensures Subsequence(v.filtered, data)
    ensures forall i :: 0 <= i < |v.filtered| ==> RowMatches(v.filtered[i], columns, term)
    ensures forall i :: 0 <= i < |data| ==> (data[i] in v.filtered <==> RowMatches(data[i], columns, term))
    ensures forall row :: row in data ==>
      multiset(v.filtered)[row] == (if RowMatches(row, columns, term) then multiset(data)[row] else 0)
    ensures ItemsPerPage * v.totalPages - ItemsPerPage < |v.filtered| <= ItemsPerPage * v.totalPages
    ensures v.totalPages == 0 <==> v.filtered == []
    ensures |v.pageRows| <= ItemsPerPage
    ensures currentPage >= 1 ==> forall k :: 0 <= k < |v.pageRows| ==>
      (currentPage - 1) * ItemsPerPage + k < |v.filtered|
      && v.pageRows[k] == v.filtered[(currentPage - 1) * ItemsPerPage + k]
    ensures currentPage >= 1 ==> forall i ::
      (currentPage - 1) * ItemsPerPage <= i < currentPage * ItemsPerPage && i < |v.filtered| ==>
      i - (currentPage - 1) * ItemsPerPage < |v.pageRows|
      && v.pageRows[i - (currentPage - 1) * ItemsPerPage] == v.filtered[i]
  {
    var filtered := Search(data, columns, term);
    View(filtered, TotalPages(|filtered|), Page(filtered, currentPage))
  }
}

=== FILE: record_store.dfy ===
/**
 * The generic record store: schema-less payloads tagged with an
 * organization id and a resource type, validated only for presence.
 */
module RecordStore {
  import opened Wrappers
  import opened Schema

  datatype Store = Store(records: map<Id, StoredRecord>, nextId: Id, clock: Time)

  const Empty: Store := Store(map[], 0, 0)

  /** Invariant of the store: ids match their keys and are below the next id; timestamps lie in the past. */
  predicate Valid(st: Store) {
    forall id :: id in st.records ==>
      && st.records[id].id == id
      && id < st.nextId
      && st.records[id].createdAt <= st.records[id].updatedAt < st.clock
  }

  lemma EmptyValid()
    ensures Valid(Empty)
  {
  }

  /**
   * The paths `GenericResource.create` validation rejects: `organizationId`,
   * `resourceType` and `data` are required; an empty `resourceType` counts as
   * missing, an empty payload does not.
   */
  function ValidationFailures(organizationId: Option<Id>, resourceType: Option<string>, data: Option<Payload>)
    : (f: map<string, Failure>)
    ensures f.Keys <= {"organizationId", "resourceType", "data"}
    ensures "organizationId" in f <==> organizationId.None?
    ensures "resourceType" in f <==> !RequiredString(resourceType)
    ensures "data" in f <==> data.None?
    ensures forall p :: p in f ==> f[p] == Required
  {
    var idFailure: map<string, Failure> := if organizationId.Some? then map[] else map["organizationId" := Required];
    var typeFailure := if RequiredString(resourceType) then idFailure else idFailure["resourceType" := Required];
    if data.Some? then typeFailure else typeFailure["data" := Required]
  }

  /**
   * `GenericResource.create(...)`: validation reports every missing path
   * together. Nothing else is checked: the organization id need not name a
   * stored organization and the payload is not compared with any field descriptor.
   */
  function Create(st: Store, organizationId: Option<Id>, resourceType: Option<string>, data: Option<Payload>)
    : (r: Result<(Store, StoredRecord), Error>)
    requires Valid(st)
    ensures r.Err? ==> r == Err(ValidationFailed(ValidationFailures(organizationId, resourceType, data)))
    ensures r.Ok? <==> organizationId.Some? && RequiredString(resourceType) && data.Some?
    ensures r.Ok? ==>
      var (st', rec) := r.value;
      && Valid(st')
      && rec.id !in st.records
      && st'.records == st.records[rec.id := rec]
      && rec.organizationId == organizationId.value
      && rec.resourceType == resourceType.value
      && rec.data == data.value
      && rec.createdAt == rec.updatedAt == st.clock
      && st'.clock > st.clock
  {
    var failures := ValidationFailures(organizationId, resourceType, data);
    if failures != map[] then Err(ValidationFailed(failures))
    else
      var rec := StoredRecord(st.nextId, organizationId.value, resourceType.value, data.value, st.clock, st.clock);
      Ok((Store(st.records[rec.id := rec], st.nextId + 1, st.clock + 1), rec))
  }

  predicate Tagged(rec: StoredRecord, organizationId: Id, resourceType: string) {
    rec.organizationId == organizationId && rec.resourceType == resourceType
  }

  /** `GenericResource.find({organizationId, resourceType})`: the records carrying exactly that tag pair. */
  function Query(st: Store, organizationId: Id, resourceType: string): (r: map<Id, StoredRecord>)
    ensures forall id :: id in r ==> id in st.records && r[id] == st.records[id]
    ensures forall id :: id in r ==> r[id].organizationId == organizationId && r[id].resourceType == resourceType
    ensures forall id :: id in st.records && Tagged(st.records[id], organizationId, resourceType) ==> id in r
  {
    map id | id in st.records && Tagged(st.records[id], organizationId, resourceType) :: st.records[id]
  }

  /**
   * A record created under one (organization, resource type) pair is found,
   * payload intact, by a query for that pair and by no query for another pair.
   */
  lemma CreatedRecordIsolated(st: Store, org: Id, rt: string, data: Payload, qOrg: Id, qRt: string)
    requires Valid(st) && rt != ""
    ensures
      var r := Create(st, Some(org), Some(rt), Some(data));
      && r.Ok?
      && var (st', rec) := r.value;
      && (rec.id in Query(st', qOrg, qRt) <==> qOrg == org && qRt == rt)
      && (qOrg == org && qRt == rt ==> Query(st', qOrg, qRt)[rec.id].data == data)
  {
  }

  /** Creating a record leaves every query for another pair exactly as it was. */
  lemma CreateLeavesOtherQueries(st: Store, org: Id, rt: string, data: Payload, qOrg: Id, qRt: string)
    requires Valid(st) && rt != ""
    requires qOrg != org || qRt != rt
    ensures
      var r := Create(st, Some(org), Some(rt), Some(data));
      r.Ok? && Query(r.value.0, qOrg, qRt) == Query(st, qOrg, qRt)
  {
    var r := Create(st, Some(org), Some(rt), Some(data));
    var (st', rec) := r.value;
    assert Query(st', qOrg, qRt).Keys == Query(st, qOrg, qRt).Keys;
  }
}

=== FILE: registry.dfy ===
/**
 * The organization store: documents keyed by id, a unique index on `slug`,
 * Mongoose validation on create, `timestamps`, and the listing newest first.
 */
module Registry {
  import opened Wrappers
  import opened Schema

  datatype Store = Store(orgs: map<Id, Organization>, nextId: Id, clock: Time)

  const Empty: Store := Store(map[], 0, 0)

  /** No two stored organizations share a slug: what the unique index guarantees. */
  predicate UniqueSlugs(orgs: map<Id, Organization>) {
    forall a, b :: a in orgs && b in orgs && orgs[a].slug == orgs[b].slug ==> a == b
  }

  /** Invariant of the store: ids match their keys and are below the next id, timestamps lie in the past, slugs are unique. */
  predicate Valid(reg: Store) {
    && (forall id :: id in reg.orgs ==>
          && reg.orgs[id].id == id
          && id < reg.nextId
          && reg.orgs[id].createdAt <= reg.orgs[id].updatedAt < reg.clock)
    && UniqueSlugs(reg.orgs)
  }

  lemma EmptyValid()
    ensures Valid(Empty)
  {
  }

  predicate SlugTaken(reg: Store, slug: string) {
    exists id :: id in reg.orgs && reg.orgs[id].slug == slug
  }

  /** The status written on create: 'active' when none is supplied, otherwise the parsed enum value. */
  function InitialStatus(status: Option<string>): (r: Option<Status>)
    ensures status.None? ==> r == Some(Active)
    ensures status.Some? ==> r == ParseStatus(status.value)
  {
    match status
    case None => Some(Active)
    case Some(s) => ParseStatus(s)
  }

  /**
   * The paths `Organization.create` validation rejects, each with its reason:
   * `name` is required, and `status`, when given, must be one of the enum's spellings.
   */
  function ValidationFailures(name: Option<string>, status: Option<string>): (f: map<string, Failure>)
    ensures f.Keys <= {"name", "status"}
    ensures "name" in f <==> !RequiredString(name)
    ensures "name" in f ==> f["name"] == Required
    ensures "status" in f <==> status.Some? && ParseStatus(status.value).None?
    ensures "status" in f ==> f["status"] == NotInEnum(status.value)
  {
    var nameFailure := if RequiredString(name) then map[] else map["name" := Required];
    if InitialStatus(status).Some? then nameFailure
    else nameFailure["status" := NotInEnum(status.value)]
  }

  /**
   * `Organization.create(...)`: validation (`name` required, `status` in the
   * enum) runs first and reports every failing path together; then the insert,
   * which the unique index on `slug` rejects when the slug is already stored.
   * The new document gets a fresh id and `createdAt == updatedAt == now`.
   */
  function Create(
    reg: Store,
    name: Option<string>,
    slug: string,
    businessType: Option<string>,
    ownerId: Option<string>,
    status: Option<string>,
    config: TenantConfig): (r: Result<(Store, Organization), Error>)
    requires Valid(reg)
    ensures ValidationFailures(name, status) != map[] ==> r == Err(ValidationFailed(ValidationFailures(name, status)))
    ensures RequiredString(name) && InitialStatus(status).Some? && SlugTaken(reg, slug) ==> r == Err(DuplicateSlug(slug))
    ensures r.Ok? <==> RequiredString(name) && InitialStatus(status).Some? && !SlugTaken(reg, slug)
    ensures r.Ok? ==>
      var (reg', o) := r.value;
      && Valid(reg')
      && o.id !in reg.orgs
      && reg'.orgs == reg.orgs[o.id := o]
      && o.name == name.value && o.slug == slug && o.config == config
      && o.businessType == businessType && o.ownerId == ownerId
      && o.status == InitialStatus(status).value
      && o.createdAt == o.updatedAt == reg.clock
      && reg'.clock > reg.clock
  {
    var failures := ValidationFailures(name, status);
    if failures != map[] then Err(ValidationFailed(failures))
    else if SlugTaken(reg, slug) then Err(DuplicateSlug(slug))
    else
      var o := Organization(reg.nextId, name.value, slug, businessType, ownerId,
                            InitialStatus(status).value, config, reg.clock, reg.clock);
      Ok((Store(reg.orgs[o.id := o], reg.nextId + 1, reg.clock + 1), o))
  }

  /** `Organization.findById(id)`: the stored document, or not-found. */
  function FindById(reg: Store, id: Id): (r: Result<Organization, Error>)
    requires Valid(reg)
    ensures r.Ok? <==> id in reg.orgs
    ensures r.Ok? ==> r.value == reg.orgs[id] && r.value.id == id
    ensures r.Err? ==> r.error == NotFound(id)
  {
    if id in reg.orgs then Ok(reg.orgs[id]) else Err(NotFound(id))
  }

  /**
   * `findByIdAndUpdate(id, {$set: {name, slug, config}})` as the client update
   * route issues it: absent values are dropped from the update, no validators
   * run, the unique index on `slug` still applies, and `timestamps` refresh
   * `updatedAt`.
   */
  function Update(reg: Store, id: Id, name: Option<string>, slug: Option<string>, config: Option<TenantConfig>)
    : (r: Result<(Store, Organization), Error>)
    requires Valid(reg)
    ensures id !in reg.orgs ==> r == Err(NotFound(id))
    ensures r.Ok? <==> id in reg.orgs && (slug.None? || forall other :: other in reg.orgs && other != id ==> reg.orgs[other].slug != slug.value)
    ensures r.Err? && id in reg.orgs ==> r.error == DuplicateSlug(slug.value)
    ensures r.Ok? ==>
      var (reg', o) := r.value;
      var prev := reg.orgs[id];
      && Valid(reg')
      && reg'.orgs == reg.orgs[id := o]
      && o.name == name.GetOr(prev.name)
      && o.slug == slug.GetOr(prev.slug)
      && o.config == config.GetOr(prev.config)
      && o.id == id && o.status == prev.status
      && o.businessType == prev.businessType && o.ownerId == prev.ownerId
      && o.createdAt == prev.createdAt
      && prev.updatedAt < o.updatedAt == reg.clock < reg'.clock
  {
    if id !in reg.orgs then Err(NotFound(id))
    else
      var prev := reg.orgs[id];
      if slug.Some? && exists other :: other in reg.orgs && other != id && reg.orgs[other].slug == slug.value then
        Err(DuplicateSlug(slug.value))
      else
        var o := prev.(name := name.GetOr(prev.name), slug := slug.GetOr(prev.slug),
                      config := config.GetOr(prev.config), updatedAt := reg.clock);
        Ok((Store(reg.orgs[id := o], reg.nextId, reg.clock + 1), o))
  }

  /** Every earlier entry was created no earlier than every later one. */
  predicate NewestFirst(s: seq<Organization>) {
    forall i, j :: 0 <= i < j < |s| ==> s[i].createdAt >= s[j].createdAt
  }

  /** Place `o` into a newest-first sequence, before the first entry that is not newer. */
  function InsertNewestFirst(s: seq<Organization>, o: Organization): (r: seq<Organization>)
    requires NewestFirst(s)
    ensures |r| == |s| + 1
    ensures r[0] == o || (s != [] && r[0] == s[0])
    ensures NewestFirst(r)
    ensures multiset(r) == multiset(s) + multiset{o}
  {
    if s == [] then [o]
    else if s[0].createdAt <= o.createdAt then
      Prepend(o, s);
      [o] + s
    else
      var rest := InsertNewestFirst(s[1..], o);
      assert multiset(s) == multiset{s[0]} + multiset(s[1..]) by {
        assert s == [s[0]] + s[1..];
      }
      Prepend(s[0], rest);
      [s[0]] + rest
  }

  /** Putting an entry at least as new as the head in front keeps the order. */
  lemma Prepend(x: Organization, s: seq<Organization>)
    requires NewestFirst(s) && (s == [] || s[0].createdAt <= x.createdAt)
    ensures NewestFirst([x] + s)
  {
  }

  /** The organization `o` is the one stored under its own id. */
  predicate Stored(reg: Store, o: Organization) {
    o.id in reg.orgs && reg.orgs[o.id] == o
  }

  /** `r` holds exactly one copy of each organization stored under an id of `ids`, and nothing else. */
  ghost predicate HoldsExactly(reg: Store, r: seq<Organization>, ids: set<Id>) {
    forall o: Organization :: multiset(r)[o] == (if o.id in ids && Stored(reg, o) then 1 else 0)
  }

  /** Inserting the organization stored under a new id extends the set of ids held. */
  lemma HoldsOneMore(reg: Store, r: seq<Organization>, ids: set<Id>, id: Id, r': seq<Organization>)
    requires Valid(reg) && id in reg.orgs && id !in ids
    requires HoldsExactly(reg, r, ids)
    requires multiset(r') == multiset(r) + multiset{reg.orgs[id]}
    ensures HoldsExactly(reg, r', ids + {id})
  {
    var x := reg.orgs[id];
    forall o: Organization
      ensures multiset(r')[o] == (if o.id in ids + {id} && Stored(reg, o) then 1 else 0)
    {
      assert multiset(r')[o] == multiset(r)[o] + multiset{x}[o];
      if o == x {
        assert o.id == id;
      }
    }
  }

  /**
   * `Organization.find({}).sort({createdAt: -1})`: every stored organization
   * exactly once and nothing else, newest first. The registry is passed by
   * value and only read.
   */
  method List(reg: Store) returns (r: seq<Organization>)
    requires Valid(reg)
    ensures NewestFirst(r)
    ensures forall o: Organization :: multiset(r)[o] == (if Stored(reg, o) then 1 else 0)
    ensures |r| == |reg.orgs|
  {
    r := [];
    var remaining := reg.orgs.Keys;
    ghost var done: set<Id> := {};
    while remaining != {}
      invariant remaining + done == reg.orgs.Keys && remaining !! done
      invariant NewestFirst(r)
      invariant |r| == |done|
      invariant HoldsExactly(reg, r, done)
      decreases remaining
    {
      var id :| id in remaining;
      ListStep(reg, r, done, remaining, id);
      r := InsertNewestFirst(r, reg.orgs[id]);
      remaining := remaining - {id};
      done := done + {id};
    }
    assert done == reg.orgs.Keys;
  }

  /** One round of `List`: moving `id` from the remaining ids to the listed ones keeps every loop fact. */
  lemma ListStep(reg: Store, r: seq<Organization>, done: set<Id>, remaining: set<Id>, id: Id)
    requires Valid(reg) && id in remaining
    requires remaining + done == reg.orgs.Keys && remaining !! done
    requires NewestFirst(r) && |r| == |done| && HoldsExactly(reg, r, done)
    ensures var r' := InsertNewestFirst(r, reg.orgs[id]);
      && (remaining - {id}) + (done + {id}) == reg.orgs.Keys && (remaining - {id}) !! (done + {id})
      && NewestFirst(r') && |r'| == |done + {id}| && HoldsExactly(reg, r', done + {id})
  {
    HoldsOneMore(reg, r, done, id, InsertNewestFirst(r, reg.orgs[id]));
  }

  /** An element found at two positions is counted at least twice. */
  lemma CountedTwice<T>(s: seq<T>, i: nat, j: nat)
    requires i < j < |s| && s[i] == s[j]
    ensures multiset(s)[s[i]] >= 2
  {
    assert s == s[..j] + s[j..];
    assert s[i] in s[..j];
    assert s[j] in s[j..];
  }

  /**
   * What a listing holding each stored organization once tells about positions:
   * every entry is stored, no id appears twice, and every stored organization appears.
   */
  lemma ListingPositions(reg: Store, listed: seq<Organization>)
    requires Valid(reg)
    requires forall o: Organization :: multiset(listed)[o] == (if Stored(reg, o) then 1 else 0)
    ensures forall i :: 0 <= i < |listed| ==> Stored(reg, listed[i])
    ensures forall i, j :: 0 <= i < j < |listed| ==> listed[i].id != listed[j].id
    ensures forall id :: id in reg.orgs ==> reg.orgs[id] in listed
  {
    forall i | 0 <= i < |listed|
      ensures Stored(reg, listed[i])
    {
      assert listed[i] in multiset(listed);
    }
    forall i, j | 0 <= i < j < |listed|
      ensures listed[i].id != listed[j].id
    {
      if listed[i].id == listed[j].id {
        assert listed[i] in multiset(listed) && listed[j] in multiset(listed);
        CountedTwice(listed, i, j);
      }
    }
    forall id | id in reg.orgs
      ensures reg.orgs[id] in listed
    {
      assert multiset(listed)[reg.orgs[id]] == 1;
    }
  }

  /** Consequence of `List` for neighbours: each entry is at least as new as the next. */
  lemma NewestFirstAdjacent(s: seq<Organization>, i: nat)
    requires NewestFirst(s) && i + 1 < |s|
    ensures s[i].createdAt >= s[i + 1].createdAt
  {
  }
}

=== FILE: schema.dfy ===
/**
 * The shapes of the two stored document kinds: an Organization with its
 * nested tenant configuration (models/Organization.ts), and a schema-less
 * record tagged with an organization and a resource type
 * (models/GenericResource.ts).
 */
module Schema {
  import opened Wrappers

  /** Document ids (MongoDB ObjectIds) are opaque; the stores hand them out from a counter. */
  type Id = nat

  /** Timestamps are ticks of a monotonic clock kept by each store. */
  type Time = nat

  /** One typed attribute of a resource (the source's `label` is `displayLabel`, `label` being reserved in Dafny). The type is a free string ('text', 'date', 'select', ...). */
  datatype Field = Field(name: string, fieldType: string, displayLabel: string)

  /**
   * One resource of a tenant. No uniqueness is enforced on keys or on field names;
   * `singularLabel` is optional (the generated configurations leave it out).
   */
  datatype ResourceDescriptor = ResourceDescriptor(
    key: string,
    displayLabel: string,
    singularLabel: Option<string>,
    icon: string,
    fields: seq<Field>)

  /** The per-tenant schema: an ordered resource list plus a theme colour. */
  datatype TenantConfig = TenantConfig(resources: seq<ResourceDescriptor>, themeColor: Option<string>)

  datatype Status = Active | Suspended | Archived

  datatype Organization = Organization(
    id: Id,
    name: string,
    slug: string,
    businessType: Option<string>,
    ownerId: Option<string>,
    status: Status,
    config: TenantConfig,
    createdAt: Time,
    updatedAt: Time)

  /** A value in a record payload, or in a table row. */
  datatype Value = VString(s: string) | VNumber(n: int) | VBool(b: bool) | VNull

  /** The schema-less payload of a record: any keys, any values. */
  type Payload = map<string, Value>

  datatype StoredRecord = StoredRecord(
    id: Id,
    organizationId: Id,
    resourceType: string,
    data: Payload,
    createdAt: Time,
    updatedAt: Time)

  /** Why validation rejected one path. */
  datatype Failure =
    | Required                // a `required` path is absent or an empty string
    | NotInEnum(given: string) // a value outside the path's enum

  /** The failures the stores report. */
  datatype Error =
    | ValidationFailed(failures: map<string, Failure>) // every failing path, keyed by its name
    | DuplicateSlug(slug: string)                      // the unique index on `slug` rejected the write
    | NotFound(id: Id)

  /** The spelling of each status in the stored document. */
  function StatusName(s: Status): (r: string)
    ensures r in {"active", "suspended", "archived"}
  {
    match s
    case Active => "active"
    case Suspended => "suspended"
    case Archived => "archived"
  }

  /** The enum check of the `status` path: only the three spellings are accepted. */
  function ParseStatus(s: string): (r: Option<Status>)
    ensures r.Some? <==> s in {"active", "suspended", "archived"}
    ensures r.Some? ==> StatusName(r.value) == s
  {
    if s == "active" then Some(Active)
    else if s == "suspended" then Some(Suspended)
    else if s == "archived" then Some(Archived)
    else None
  }

  /** Every status survives being written out and read back. */
  lemma StatusRoundTrip(s: Status)
    ensures ParseStatus(StatusName(s)) == Some(s)
  {
  }

  /** Mongoose's `required` check on a String path: absent and empty both fail. */
  function RequiredString(s: Option<string>): (ok: bool)
    ensures s.None? ==> !ok
    ensures s.Some? ==> (ok <==> |s.value| > 0)
  {
    s.Some? && s.value != ""
  }
}

=== FILE: seqs.dfy ===
/** `Array.prototype.filter` and the order-preservation it guarantees. */
module Seqs {

  /** `a` can be obtained from `b` by deleting elements, keeping the order of the rest. */
  predicate Subsequence<T(==)>(a: seq<T>, b: seq<T>)
    decreases |b|
  {
    if a == [] then true
    else if b == [] then false
    else if a[0] == b[0] then Subsequence(a[1..], b[1..])
    else Subsequence(a, b[1..])
  }

  /** `s.filter(keep)`: the elements of `s` for which `keep` holds, in their original order. */
  function Filter<T(==)>(s: seq<T>, keep: T -> bool): (r: seq<T>)
    ensures |r| <= |s|
    ensures forall i :: 0 <= i < |r| ==> r[i] in s && keep(r[i])
    ensures forall i :: 0 <= i < |s| && keep(s[i]) ==> s[i] in r
    ensures forall x :: x in s ==> multiset(r)[x] == (if keep(x) then multiset(s)[x] else 0)
  {
    if s == [] then []
    else
      var rest := Filter(s[1..], keep);
      assert s == [s[0]] + s[1..];
      assert multiset(rest)[s[0]] == (if keep(s[0]) then multiset(s[1..])[s[0]] else 0);
      if keep(s[0]) then [s[0]] + rest else rest
  }

  /** Filtering only deletes: what is left keeps its relative order. */
  lemma {:induction false} FilterIsSubsequence<T>(s: seq<T>, keep: T -> bool)
    ensures Subsequence(Filter(s, keep), s)
  {
    if s != [] {
      FilterIsSubsequence(s[1..], keep);
      var rest := Filter(s[1..], keep);
      if keep(s[0]) {
        assert Filter(s, keep) == [s[0]] + rest;
        assert ([s[0]] + rest)[1..] == rest;
      } else if rest != [] {
        assert keep(rest[0]);
      }
    }
  }

  /** Filtering a sequence extended by one element extends the result by that element exactly when it passes. */
  lemma {:induction false} FilterAppendOne<T>(s: seq<T>, x: T, keep: T -> bool)
    ensures Filter(s + [x], keep) == Filter(s, keep) + (if keep(x) then [x] else [])
  {
    if s == [] {
      assert s + [x] == [x];
    } else {
      assert (s + [x])[1..] == s[1..] + [x];
      FilterAppendOne(s[1..], x, keep);
    }
  }

  /** When every element passes, filtering returns the sequence unchanged. */
  lemma {:induction false} FilterKeepsAll<T>(s: seq<T>, keep: T -> bool)
    requires forall i :: 0 <= i < |s| ==> keep(s[i])
    ensures Filter(s, keep) == s
  {
    if s != [] {
      FilterKeepsAll(s[1..], keep);
      assert [s[0]] + s[1..] == s;
    }
  }
}

=== FILE: tenant_generator.dfy ===
/**
 * The tenant-creation request: pick a configuration by keyword, derive the
 * slug from the prompt, and create the organization.
 */
module TenantGenerator {
  import opened Wrappers
  import opened Text
  import opened Schema
  import Registry

  /**
   * `s.replace(/\s+/g, '-')`: each maximal run of whitespace becomes a single
   * '-'. Read left to right, a whitespace character followed by another one
   * contributes nothing and the last one of a run contributes the '-'.
   */
  function CollapseWhitespace(s: string): (r: string)
    ensures |r| <= |s|
  {
    if s == [] then []
    else if !IsWhitespace(s[0]) then [s[0]] + CollapseWhitespace(s[1..])
    else if |s| > 1 && IsWhitespace(s[1]) then CollapseWhitespace(s[1..])
    else "-" + CollapseWhitespace(s[1..])
  }

  /**
   * The slug of a new tenant: whitespace runs replaced by '-', then lower-cased.
   * Nothing is trimmed and no punctuation is removed.
   */
  function DeriveSlug(prompt: string): (slug: string)
    ensures NoWhitespace(slug)
    ensures NoUpper(slug)
    ensures |slug| <= |prompt|
  {
    CollapseShape(prompt);
    Lower(CollapseWhitespace(prompt))
  }

  /** The replacement leaves no whitespace. */
  lemma {:induction false} CollapseShape(s: string)
    ensures NoWhitespace(CollapseWhitespace(s))
  {
    if s != [] {
      CollapseShape(s[1..]);
    }
  }

  /** Text without whitespace passes through the replacement untouched. */
  lemma {:induction false} CollapseNoWhitespace(s: string)
    requires NoWhitespace(s)
    ensures CollapseWhitespace(s) == s
  {
    if s != [] {
      CollapseNoWhitespace(s[1..]);
      assert [s[0]] + s[1..] == s;
    }
  }

  /** Deriving the slug of a slug gives the slug back. */
  lemma SlugIdempotent(prompt: string)
    ensures DeriveSlug(DeriveSlug(prompt)) == DeriveSlug(prompt)
  {
    var slug := DeriveSlug(prompt);
    CollapseNoWhitespace(slug);
    LowerIdempotent(CollapseWhitespace(prompt));
  }

  /** For text without whitespace the slug is the lower-cased text. */
  lemma SlugOfSingleWord(prompt: string)
    requires NoWhitespace(prompt)
    ensures DeriveSlug(prompt) == Lower(prompt)
  {
    CollapseNoWhitespace(prompt);
  }

  /** Text that does not end inside a whitespace run is replaced independently of what follows it. */
  lemma {:induction false} CollapseAppend(a: string, t: string)
    requires a == [] || !IsWhitespace(a[|a| - 1])
    ensures CollapseWhitespace(a + t) == CollapseWhitespace(a) + CollapseWhitespace(t)
  {
    if a == [] {
      assert a + t == t;
    } else {
      var ca, ct := CollapseWhitespace(a[1..]), CollapseWhitespace(t);
      var emitted: string :=
        if !IsWhitespace(a[0]) then [a[0]] else if IsWhitespace(a[1]) then [] else "-";
      assert (a + t)[1..] == a[1..] + t;
      assert IsWhitespace(a[0]) ==> |a| > 1 && (a + t)[1] == a[1];
      assert CollapseWhitespace(a) == emitted + ca;
      assert CollapseWhitespace(a + t) == emitted + CollapseWhitespace(a[1..] + t);
      CollapseAppend(a[1..], t);
      assert emitted + (ca + ct) == (emitted + ca) + ct;
    }
  }

  /** A whole whitespace run in front of non-whitespace becomes exactly one '-'. */
  lemma {:induction false} CollapseRun(w: string, b: string)
    requires |w| > 0 && forall k :: 0 <= k < |w| ==> IsWhitespace(w[k])
    requires b == [] || !IsWhitespace(b[0])
    ensures CollapseWhitespace(w + b) == "-" + CollapseWhitespace(b)
  {
    assert (w + b)[1..] == w[1..] + b;
    if |w| == 1 {
      assert w[1..] + b == b;
    } else {
      CollapseRun(w[1..], b);
      assert (w + b)[1] == w[1];
    }
  }

  /**
   * The slug replaces each maximal whitespace run by one '-': for text `a`,
   * a run `w`, and text `b`, where the run cannot be extended into `a` or `b`,
   * the slug of `a + w + b` is the slug of `a`, a '-', and the slug of `b`.
   */
  lemma SlugReplacesRun(a: string, w: string, b: string)
    requires a == [] || !IsWhitespace(a[|a| - 1])
    requires |w| > 0 && forall k :: 0 <= k < |w| ==> IsWhitespace(w[k])
    requires b == [] || !IsWhitespace(b[0])
    ensures DeriveSlug(a + w + b) == DeriveSlug(a) + "-" + DeriveSlug(b)
  {
    var ca, cb := CollapseWhitespace(a), CollapseWhitespace(b);
    assert CollapseWhitespace(a + w + b) == ca + ("-" + cb) by {
      assert a + w + b == a + (w + b);
      CollapseAppend(a, w + b);
      CollapseRun(w, b);
    }
    assert Lower(ca + ("-" + cb)) == Lower(ca) + ("-" + Lower(cb)) by {
      LowerAppend(ca, "-" + cb);
      LowerAppend("-", cb);
      assert Lower("-") == "-";
    }
    assert Lower(ca) + ("-" + Lower(cb)) == Lower(ca) + "-" + Lower(cb);
  }

  /** Visible ASCII characters are not whitespace. */
  lemma PrintableNoWhitespace(s: string)
    requires forall k :: 0 <= k < |s| ==> '!' <= s[k] <= '~'
    ensures NoWhitespace(s)
  {
  }

  /** Punctuation is kept: the apostrophe and the exclamation mark survive. */
  lemma SlugKeepsPunctuation()
    ensures DeriveSlug("Joe's Gym!") == "joe's-gym!"
  {
    var a, b := "Joe's", "Gym!";
    assert DeriveSlug(a + " " + b) == Lower(a) + "-" + Lower(b) by {
      PrintableNoWhitespace(a);
      PrintableNoWhitespace(b);
      SlugOfTwoWords(a, b);
    }
    assert a + " " + b == "Joe's Gym!";
    assert Lower(a) + "-" + Lower(b) == "joe's-gym!" by {
      assert Lower(a) == "joe's";
      assert Lower(b) == "gym!";
    }
  }

  /** Two words separated by one space: the lower-cased words joined by '-'. */
  lemma SlugOfTwoWords(a: string, b: string)
    requires a != [] && b != [] && NoWhitespace(a) && NoWhitespace(b)
    ensures DeriveSlug(a + " " + b) == Lower(a) + "-" + Lower(b)
  {
    SlugReplacesRun(a, " ", b);
    SlugOfSingleWord(a);
    SlugOfSingleWord(b);
  }

  /** Whitespace at either end is not trimmed: a leading or trailing run becomes a leading or trailing '-'. */
  lemma SlugKeepsOuterRuns(w: string, b: string)
    requires |w| > 0 && forall k :: 0 <= k < |w| ==> IsWhitespace(w[k])
    requires b == [] || (!IsWhitespace(b[0]) && !IsWhitespace(b[|b| - 1]))
    ensures DeriveSlug(w + b) == "-" + DeriveSlug(b)
    ensures DeriveSlug(b + w) == DeriveSlug(b) + "-"
  {
    assert DeriveSlug(w + b) == "-" + DeriveSlug(b) by {
      assert "" + w + b == w + b;
      SlugReplacesRun("", w, b);
    }
    assert DeriveSlug(b + w) == DeriveSlug(b) + "-" by {
      assert b + w + "" == b + w;
      SlugReplacesRun(b, w, "");
    }
  }

  const GymConfig: TenantConfig := TenantConfig(
    [ ResourceDescriptor("trainers", "Trainers", None, "users", [Field("bio", "text", "Biography")]),
      ResourceDescriptor("classes", "Classes", None, "calendar", [Field("time", "date", "Start Time")]) ],
    Some("emerald"))

  const MechanicConfig: TenantConfig := TenantConfig(
    [ ResourceDescriptor("mechanics", "Mechanics", None, "wrench", [Field("specialty", "text", "Specialty")]),
      ResourceDescriptor("service-slots", "Service Bay", None, "car", [Field("vehicle", "text", "Car Model")]) ],
    Some("slate"))

  /** The stored form of `{}`: no theme colour, and the resource array defaults to empty. */
  const EmptyConfig: TenantConfig := TenantConfig([], None)

  /** Keyword choice of the configuration; "gym" takes precedence over "mechanic". */
  function SelectConfig(prompt: string): (c: TenantConfig)
    ensures Contains(Lower(prompt), "gym") ==> c == GymConfig
    ensures !Contains(Lower(prompt), "gym") && Contains(Lower(prompt), "mechanic") ==> c == MechanicConfig
    ensures !Contains(Lower(prompt), "gym") && !Contains(Lower(prompt), "mechanic") ==> c == EmptyConfig
  {
    var lowerPrompt := Lower(prompt);
    if Contains(lowerPrompt, "gym") then GymConfig
    else if Contains(lowerPrompt, "mechanic") then MechanicConfig
    else EmptyConfig
  }

  /** Keyword matching ignores case: the choice depends only on the lower-cased prompt. */
  lemma SelectIgnoresCase(a: string, b: string)
    requires Lower(a) == Lower(b)
    ensures SelectConfig(a) == SelectConfig(b)
    ensures SelectConfig(Lower(a)) == SelectConfig(a)
  {
    LowerIdempotent(a);
  }

  /** A prompt naming both businesses gets the gym configuration. */
  lemma GymWinsOverMechanic(prompt: string)
    requires Contains(Lower(prompt), "gym") && Contains(Lower(prompt), "mechanic")
    ensures SelectConfig(prompt).themeColor == Some("emerald")
    ensures |SelectConfig(prompt).resources| == 2
    ensures SelectConfig(prompt).resources[0].key == "trainers"
    ensures SelectConfig(prompt).resources[1].key == "classes"
  {
  }

  /** Resource keys are pairwise distinct, lower-case and free of whitespace. */
  predicate KeysWellFormed(c: TenantConfig) {
    && (forall i, j :: 0 <= i < j < |c.resources| ==> c.resources[i].key != c.resources[j].key)
    && (forall i :: 0 <= i < |c.resources| ==> NoUpper(c.resources[i].key) && NoWhitespace(c.resources[i].key))
  }

  /** A string of lower-case letters and hyphens is a well-formed key. */
  lemma {:induction false} LowerHyphenKey(s: string)
    requires forall k :: 0 <= k < |s| ==> 'a' <= s[k] <= 'z' || s[k] == '-'
    ensures NoUpper(s) && NoWhitespace(s)
  {
  }

  /** Every configuration the keyword rule can produce has well-formed keys. */
  lemma SelectedKeysWellFormed(prompt: string)
    ensures KeysWellFormed(SelectConfig(prompt))
  {
    GymKeysWellFormed();
    MechanicKeysWellFormed();
  }

  lemma GymKeysWellFormed()
    ensures KeysWellFormed(GymConfig)
  {
    LowerHyphenKey("trainers");
    LowerHyphenKey("classes");
  }

  lemma MechanicKeysWellFormed()
    ensures KeysWellFormed(MechanicConfig)
  {
    LowerHyphenKey("mechanics");
    LowerHyphenKey("service-slots");
  }

  /**
   * `POST` of the generate route: the organization is named by the prompt
   * verbatim, takes the derived slug and the selected configuration, and is
   * created with the default status.
   */
  function Generate(reg: Registry.Store, prompt: string): (r: Result<(Registry.Store, Organization), Error>)
    requires Registry.Valid(reg)
    ensures prompt == "" ==> r == Err(ValidationFailed(map["name" := Required]))
    ensures prompt != "" ==> (r.Ok? <==> !Registry.SlugTaken(reg, DeriveSlug(prompt)))
    ensures prompt != "" && r.Err? ==> r.error == DuplicateSlug(DeriveSlug(prompt))
    ensures r.Ok? ==>
      var (reg', o) := r.value;
      && Registry.Valid(reg')
      && reg'.orgs == reg.orgs[o.id := o]
      && o.name == prompt
      && o.slug == DeriveSlug(prompt)
      && o.config == SelectConfig(prompt)
      && o.status == Active
      && o.businessType == None && o.ownerId == None
  {
    Registry.Create(reg, Some(prompt), DeriveSlug(prompt), None, None, None, SelectConfig(prompt))
  }

  /**
   * Two prompts with the same slug cannot both create a tenant: after the
   * first succeeds, the second fails with the duplicate-slug error.
   */
  lemma SameSlugCreatedOnce(reg: Registry.Store, a: string, b: string)
    requires Registry.Valid(reg) && b != ""
    requires DeriveSlug(a) == DeriveSlug(b)
    requires Generate(reg, a).Ok?
    ensures Generate(Generate(reg, a).value.0, b) == Err(DuplicateSlug(DeriveSlug(b)))
  {
    var (reg', o) := Generate(reg, a).value;
    assert o.id in reg'.orgs && reg'.orgs[o.id].slug == DeriveSlug(b);
  }
}

=== FILE: text.dfy ===
/**
 * Character classes and string operations with JavaScript's meaning:
 * the `\s` class of regular expressions, `toLowerCase`/`toUpperCase`
 * restricted to ASCII letters, and `String.prototype.includes`.
 */
module Text {

  /** The characters the regular-expression class `\s` matches. */
  predicate IsWhitespace(c: char) {
    || c == ' '
    || ('\t' <= c <= '\r')   // tab, line feed, vertical tab, form feed, carriage return
    || IsUnicodeSpace(c)
  }

  /** The non-ASCII members of `\s`: no-break and typographic spaces, separators, the byte-order mark. */
  predicate IsUnicodeSpace(c: char) {
    || c == '\U{00A0}' || c == '\U{1680}'
    || ('\U{2000}' <= c <= '\U{200A}')
    || c == '\U{2028}' || c == '\U{2029}' || c == '\U{202F}'
    || c == '\U{205F}' || c == '\U{3000}' || c == '\U{FEFF}'
  }

  predicate IsUpper(c: char) {
    'A' <= c <= 'Z'
  }

  predicate IsLower(c: char) {
    'a' <= c <= 'z'
  }

  function LowerChar(c: char): (r: char)
    ensures !IsUpper(r)
    ensures IsWhitespace(r) <==> IsWhitespace(c)
    ensures !IsUpper(c) ==> r == c
    ensures IsUpper(c) ==> IsLower(r) && r as int == c as int + 32
  {
    if IsUpper(c) then (c as int + 32) as char else c
  }

  function UpperChar(c: char): (r: char)
    ensures !IsLower(r)
    ensures !IsLower(c) ==> r == c
    ensures IsLower(c) ==> IsUpper(r) && r as int + 32 == c as int
  {
    if IsLower(c) then (c as int - 32) as char else c
  }

  /** `s.toLowerCase()` over ASCII letters; every other character is kept. */
  function Lower(s: string): (r: string)
    ensures |r| == |s|
    ensures forall i :: 0 <= i < |s| ==> r[i] == LowerChar(s[i])
  {
    seq(|s|, i requires 0 <= i < |s| => LowerChar(s[i]))
  }

  predicate NoUpper(s: string) {
    forall i :: 0 <= i < |s| ==> !IsUpper(s[i])
  }

  predicate NoWhitespace(s: string) {
    forall i :: 0 <= i < |s| ==> !IsWhitespace(s[i])
  }

  lemma LowerAppend(a: string, b: string)
    ensures Lower(a + b) == Lower(a) + Lower(b)
  {
    assert forall i :: 0 <= i < |a + b| ==> Lower(a + b)[i] == (Lower(a) + Lower(b))[i];
  }

  /** Lower-casing leaves no upper-case letter behind, and so a second pass changes nothing. */
  lemma LowerIdempotent(s: string)
    ensures NoUpper(Lower(s))
    ensures Lower(Lower(s)) == Lower(s)
  {
  }

  function DigitChar(d: nat): (c: char)
    requires d < 10
    ensures '0' <= c <= '9'
  {
    ('0' as int + d) as char
  }

  predicate AllDigits(s: string) {
    forall k :: 0 <= k < |s| ==> '0' <= s[k] <= '9'
  }

  /** The number a string of decimal digits denotes, read left to right (Horner's rule). */
  function DigitsValue(s: string): nat
    requires AllDigits(s)
  {
    if s == [] then 0
    else 10 * DigitsValue(s[..|s| - 1]) + (s[|s| - 1] as int - '0' as int)
  }

  /** Decimal digits of a natural number, most significant first, without leading zeros. */
  function Decimal(n: nat): (r: string)
    ensures 1 <= |r|
    ensures AllDigits(r)
    ensures n > 0 ==> r[0] != '0'
    ensures DigitsValue(r) == n
  {
    if n < 10 then [DigitChar(n)]
    else
      var r := Decimal(n / 10) + [DigitChar(n % 10)];
      assert r[..|r| - 1] == Decimal(n / 10);
      r
  }

  /** Different numbers are written differently. */
  lemma DecimalInjective(a: nat, b: nat)
    requires Decimal(a) == Decimal(b)
    ensures a == b
  {
  }

  /** `sub` occurs in `s` starting at index `i`. */
  predicate OccursAt(s: string, sub: string, i: int) {
    0 <= i && i + |sub| <= |s| && s[i..i + |sub|] == sub
  }

  /** `s.includes(sub)`. */
  predicate Contains(s: string, sub: string) {
    exists i :: 0 <= i <= |s| && OccursAt(s, sub, i)
  }

  /**
   * The search `String.prototype.includes` performs: try each start
   * position in turn, comparing character by character.
   */
  method Includes(s: string, sub: string) returns (found: bool)
    ensures found <==> Contains(s, sub)
  {
    if |sub| > |s| {
      return false;
    }
    var i := 0;
    while i <= |s| - |sub|
      invariant 0 <= i <= |s| - |sub| + 1
      invariant forall k :: 0 <= k < i ==> !OccursAt(s, sub, k)
    {
      var j := 0;
      while j < |sub| && s[i + j] == sub[j]
        invariant 0 <= j <= |sub|
        invariant forall k :: 0 <= k < j ==> s[i + k] == sub[k]
      {
        j := j + 1;
      }
      if j == |sub| {
        assert s[i..i + |sub|] == sub;
        assert OccursAt(s, sub, i);
        return true;
      }
      assert s[i + j] != sub[j];
      assert s[i..i + |sub|][j] != sub[j];
      i := i + 1;
    }
    found := false;
  }

  /** Every string contains the empty string. */
  lemma ContainsEmpty(s: string)
    ensures Contains(s, "")
  {
    assert OccursAt(s, "", 0);
  }

  /** A suffix of a string occurs in it. */
  lemma SuffixContained(s: string, suffix: string)
    ensures |suffix| <= |s| && s[|s| - |suffix|..] == suffix ==> Contains(s, suffix)
  {
    if |suffix| <= |s| {
      assert s[|s| - |suffix|..] == suffix ==> OccursAt(s, suffix, |s| - |suffix|);
    }
  }

  /** An occurrence in `b` is an occurrence in `a + b`, shifted by `|a|`. */
  lemma ContainsInRightPart(a: string, b: string, sub: string)
    requires Contains(b, sub)
    ensures Contains(a + b, sub)
  {
    var i :| 0 <= i <= |b| && OccursAt(b, sub, i);
    assert (a + b)[|a| + i..|a| + i + |sub|] == b[i..i + |sub|];
    assert OccursAt(a + b, sub, |a| + i);
  }
}

=== FILE: wrappers.dfy ===
/** Failure-carrying datatypes used by the stores and the request handlers. */
module Wrappers {

  /** A value that may be absent: JavaScript's `undefined`/`null` for an optional field. */
  datatype Option<+T> = None | Some(value: T) {
    function GetOr(default: T): T {
      match this
      case Some(v) => v
      case None => default
    }
  }

  /** The outcome of a store operation: a value, or the error the store raised. */
  datatype Result<+T, +E> = Ok(value: T) | Err(error: E)
}
